=== FILE: README.md ===
# Thunderbolt-Switch settings core, modelled in Dafny

Thunderbolt-Switch (DockerForm) keeps one set of game settings per dock state. Each
tracked title ("game") owns settings entries. An entry is either a file or a registry
key, and it has a store of snapshots keyed by state. When the machine docks or undocks,
the program saves the live settings into the snapshot of the state being left. It then
restores the snapshot of the state being entered. On the first dock-status change the
status loop sees after start-up, a reconciliation pass (`SanityCheck`) runs instead of
the swap: it compares every entry's live bytes with its stored snapshot. It then
disables the entry, syncs it, escalates a conflict to a yes/no question, or leaves it
alone. A process monitor saves a title's settings when its game exits. Power profiles
are merged field by field, encoded as hexadecimal for the tuning tool, and summarised
as text.

The model is split into these modules:

- `Model` (`model.dfy`): the data. Titles, settings entries with their snapshot stores,
  and the live world of files and exported registry blobs.
- `SyncEngine` (`sync_engine.dfy`): the byte comparator, the per-entry capture/restore
  step, and the title-wide and database-wide syncs of `DatabaseManager`.
- `Reconcile` (`reconcile.dfy`): the reconciliation pass run on the first dock-status
  change after start-up.
- `Dock` (`dock.dfy`): the per-title dock sync of the form. Also the edge-triggered
  status step and the controller-count rule.
- `Processes` (`processes.dfy`): one poll of the process monitor, and the title-list
  insert/replace step.
- `PowerProfiles` (`power_profile.dfy`): `GetLast`, the hex encodings, `DigestProfile`,
  `Equals` and `ToString`.
- `Wrappers` (`wrappers.dfy`): `Option`.

Modelling choices:

- Every polling loop is one pure step function. The live world goes in and the new
  world comes out.
- The conflict dialog is an oracle `decide`. `true` means "Yes", i.e. restore the
  stored snapshot.
- `GetCurrentState` is abstract. It is the `key` parameter of `SanityCheck`, and
  `stateKey` in the status step.
- The two folders of the form's dock sync are the keys `"docked"` and `"undocked"`.
- The two source files come from slightly different revisions. `DatabaseManager.cs` is
  taken as the authoritative per-entry step. The form's dock sync (DockerForm/Form1.cs
  53-95) is modelled with that step: a missing live artifact disables the entry, and a
  restore needs a stored snapshot. The form's own loop copies files without either check.
- When an enabled entry's artifact exists but no snapshot exists for the current state,
  `SanityCheck` returns at once (DockerForm/DatabaseManager.cs:262-263). That skips the
  remaining entries and titles, and this title's fingerprint update, so such an entry is
  never synced by the pass. `Reconcile.SanityCheck` reports where the pass stopped in
  `abortedAt`, and `Reconcile.SanityCheckStopsFirst` shows it is the first such entry.
- Process matching (DockerForm/Form1.cs:151-153) is the predicate `Processes.Matches` over
  `Processes.PathCombine`, a model of `Path.Combine`. Both are plain definitions; what they
  promise is stated by `Processes.MatchIgnoresCase`, `Processes.MatchTitles` and
  `Processes.MatchAll`.
- The eight `Has*` tests of a power profile (DockerForm/PowerProfile.cs:133-171) are the
  single predicate `PowerProfiles.Has`: the setting is present and is not "0". It is a
  plain definition, and the contracts of `PowerProfiles.Override`,
  `PowerProfiles.DigestProfile`, `PowerProfiles.LinesOf`, `PowerProfiles.Summary` and
  `PowerProfiles.SummaryListsPresentSettings` are phrased through it.

## Model

| member | source | states |
|---|---|---|
| Model.WriteLive | DockerForm/DatabaseManager.cs:105-106 | writing a snapshot makes the artifact read back as that snapshot, stamps a file's last-write time, and leaves every other location as it was |
| SyncEngine.SameFrom | DockerForm/DatabaseManager.cs:193-199 | the byte loop from index `i` succeeds exactly when the two suffixes are equal |
| SyncEngine.Equality | DockerForm/DatabaseManager.cs:175-203 | false when either array is missing or the lengths differ; otherwise true exactly when every byte matches |
| SyncEngine.EqualityReflexiveSymmetric | DockerForm/DatabaseManager.cs:175-203 | the comparator is reflexive on present arrays and symmetric |
| SyncEngine.UpdateSetting | DockerForm/DatabaseManager.cs:79-153 | a missing artifact only disables the entry; capture puts the live bytes under the game key and keeps every other key; a restore happens only when the dest snapshot exists, and then the artifact holds it and a file's last-write time is the title's last check; no other location changes |
| SyncEngine.CaptureThenRestoreRoundTrip | DockerForm/DatabaseManager.cs:94-106 | capture into a key then restore from the same key leaves the live bytes unchanged and keeps them stored under that key |
| SyncEngine.SyncSettings | DockerForm/DatabaseManager.cs:155-158 | disabled entries are untouched; entries are never re-enabled and never move; stores change only under the game key; without restore the world is unchanged and each entry is exactly captured or disabled; locations no entry addresses keep their bytes |
| SyncEngine.SameKeySyncKeepsLive | DockerForm/DatabaseManager.cs:155-158 | a sync whose capture and restore keys coincide changes no live bytes anywhere |
| SyncEngine.FullSyncRestoresEachEntry | DockerForm/DatabaseManager.cs:94-113 | with distinct locations, every enabled entry whose artifact exists captures its old bytes and ends up holding the dest snapshot, or its own bytes when there is none |
| SyncEngine.SyncTitle | DockerForm/DatabaseManager.cs:155-161 | only enabled entries change, stores change only under the game key, and the fingerprint becomes the given value, with every other title field kept |
| SyncEngine.SyncAll | DockerForm/DatabaseManager.cs:166-173 | every title ends with fingerprint equal to the current key and its other fields unchanged; disabled entries are untouched, no entry is re-enabled or moved, and stores change only under the title's old fingerprint; without restore the world is unchanged; locations no entry addresses keep their bytes |
| SyncEngine.SyncAllTwiceKeepsLive | DockerForm/DatabaseManager.cs:166-173 | once every fingerprint equals the key, a full sync changes no live bytes |
| SyncEngine.SyncAllIdempotentOnLive | DockerForm/DatabaseManager.cs:166-173 | a second full sync right after the first leaves the live bytes where the first put them |
| Reconcile.Classify | DockerForm/DatabaseManager.cs:233-280 | exactly one verdict applies: disable iff the artifact is missing, abort iff nothing is stored for the current key, autosync iff the fingerprint differs, conflict iff it matches and the bytes differ, clean otherwise |
| Reconcile.ReconcileSetting | DockerForm/DatabaseManager.cs:226-280 | autosync captures into the fingerprint and restores the current key; "yes" restores only and "no" captures only, both under the current key; abort and clean change nothing; the entry ends disabled iff it was disabled or its artifact is missing |
| Reconcile.ReconcileSettings | DockerForm/DatabaseManager.cs:226-281 | disabled entries are untouched, no entry is re-enabled, and stores change only under the current key and the fingerprint; every entry lacking the current key that the loop got past is disabled; when the loop stops, it stops at an enabled entry lacking the current key and leaves it and every later entry untouched; locations no entry addresses keep their bytes, and no file or registry key is created or deleted |
| Reconcile.SanityCheckKeepsArtifacts | DockerForm/DatabaseManager.cs:205-288 | the pass creates and deletes no file or registry key: one exists afterwards exactly when it existed before |
| Reconcile.FirstStop | DockerForm/DatabaseManager.cs:224-263 | reference for the stop point: none exactly when no enabled, live entry lacks the current key; otherwise the first such entry |
| Reconcile.ReconcileSettingsStopsFirst | DockerForm/DatabaseManager.cs:224-263 | for every settings list, entries sharing a location included, the loop returns exactly at the first enabled, live entry with no snapshot for the current key |
| Reconcile.ReconcileSettingsFollowsVerdicts | DockerForm/DatabaseManager.cs:224-280 | over entries at distinct locations every enabled entry before the stop point ends, in its setting and in its live artifact, as the per-entry step on the initial world leaves it |
| Reconcile.ReconcileTitle | DockerForm/DatabaseManager.cs:207-284 | a title with an error code is untouched; only entries and fingerprint change, within the frame of the two keys; a completed title's fingerprint becomes the current key; the pass returns in an error-free title exactly when one of its entries lacking the current key is still enabled afterwards, and the title then keeps its fingerprint; locations its entries do not address keep their bytes, and no file or registry key is created or deleted |
| Reconcile.ReconcileTitleStopsIff | DockerForm/DatabaseManager.cs:207-263 | for every title, the pass returns in it exactly when it has no error and one of its enabled, live entries lacks the current key |
| Reconcile.SanityCheck | DockerForm/DatabaseManager.cs:205-288 | titles with an error are untouched and every title keeps its frame; every clean title before the stop point is stamped with the current key and has its lacking entries disabled; at the stop point the title keeps its fingerprint and still has an enabled entry lacking a snapshot, and every later title is untouched; locations no entry addresses keep their bytes |
| Reconcile.FirstStoppingTitle | DockerForm/DatabaseManager.cs:205-263 | reference for the pass's stop point: none exactly when no title stops; otherwise the first error-free title with an enabled, live entry lacking the current key |
| Reconcile.SanityCheckStopsFirst | DockerForm/DatabaseManager.cs:205-263 | for every database, titles sharing a file included, the pass returns exactly at the first title that stops |
| Reconcile.CompletesWhenEverythingStored | DockerForm/DatabaseManager.cs:262-283 | when every enabled entry has a snapshot for the current key the pass never returns early and stamps every clean title |
| Reconcile.ReconcileSettingAsWritten | DockerForm/DatabaseManager.cs:233-237 | for a file entry the as-written existence test is the kind-aware step; a registry entry with no file at its key path is disabled and the world is left alone, whatever the key holds |
| Reconcile.RegistryEntryDisabledAsWritten | DockerForm/DatabaseManager.cs:233-247 | a registry entry whose key exports and matches its snapshot is disabled as written, and left clean and enabled by the kind-aware test |
| Dock.FoldersDiffer | DockerForm/Form1.cs:55-56 | the capture and restore folders always differ; capture goes to "undocked" exactly when the next state is docked; one transition's capture folder is the reverse transition's restore folder |
| Dock.DockSync | DockerForm/Form1.cs:53-95 | disabled entries are skipped; stores change only in the folder being left; capture and restore are gated independently; a capture-only sync saves each live artifact into that folder and changes no live bytes; last check becomes now |
| Dock.DockSwapRestoresNextState | DockerForm/Form1.cs:55-88 | a full swap saves each entry's live bytes in the folder being left and then restores the folder of the next state, when it holds a snapshot |
| Dock.FullSync | DockerForm/Form1.cs:97-102 | every title is swapped towards the new state: stamped with now, other fields kept, disabled entries untouched, no entry re-enabled, stores changed only in the folder being left; locations no entry addresses keep their bytes |
| Dock.FullSyncEntersState | DockerForm/Form1.cs:55-102 | over a database whose entries are all at distinct locations every enabled entry with a live artifact captures its old bytes into the folder being left, and its artifact ends holding the snapshot of the state entered when there is one, its own bytes otherwise |
| Dock.ActionOf | DockerForm/Form1.cs:115-122 | nothing runs without an edge; the reconciliation pass runs iff there is an edge at first boot; otherwise the full sync runs |
| Dock.NextMonitor | DockerForm/Form1.cs:124-127 | after a call the previous status equals the current one, and first boot survives only a call without an edge |
| Dock.UpdateGameDatabase | DockerForm/Form1.cs:113-129 | no edge is a no-op; an edge at first boot yields the reconciliation pass's result, a later edge the full sync's |
| Dock.RepeatIsNoop | DockerForm/Form1.cs:113-129 | an immediate second call changes nothing, and first boot never comes back once an edge is seen |
| Dock.SanityCheckRunsOnce | DockerForm/Form1.cs:113-129 | over any run of polled statuses, the reconciliation pass runs once if the run starts at first boot and sees a change, and never otherwise |
| Dock.ActiveControllers | DockerForm/Form1.cs:181-191 | the list holds the same set of descriptions as the controllers with a description and error code 0, is empty exactly when none is, and is no longer than the enumeration |
| Dock.ActiveControllersCount | DockerForm/Form1.cs:181-193 | the list has one element per healthy controller, so the count the status rule reads is the number of healthy controllers |
| Dock.ActiveControllersConcat | DockerForm/Form1.cs:181-191 | the list of a concatenation of enumerations is the concatenation of their lists, so descriptions keep the enumeration order |
| Dock.UndockedIffSingleHealthy | DockerForm/Form1.cs:189-193 | the status is undocked exactly when one controller, and only one, is healthy |
| Processes.Lower | DockerForm/Form1.cs:151-152 | lower-casing keeps the length, leaves no capital letter, and changes each character only in case |
| Processes.LowerForgetsCase | DockerForm/Form1.cs:151-153 | lower-casing forgets any earlier case change and is idempotent |
| Processes.MatchIgnoresCase | DockerForm/Form1.cs:151-153 | matching a title does not depend on the case of the process path; an unknown path matches only a title whose joined path is empty |
| Processes.AddOrUpdate | DockerForm/Form1.cs:154 | the process is then tracked for the given title, no other process changes, and each process is tracked at most once |
| Processes.MatchTitles | DockerForm/Form1.cs:149-155 | a process matched by some title becomes tracked for a matching title; an unmatched process leaves the tracked set unchanged; other processes are untouched |
| Processes.MatchAll | DockerForm/Form1.cs:147-156 | tracked processes are never dropped, every matched running process ends tracked for a title that matches it, and any change records a title that matches that process |
| Processes.ExitCapture | DockerForm/Form1.cs:166-168 | the exit sync saves each live artifact into the folder of the current state, disables entries whose artifact is missing, and touches nothing else in the title but its last check |
| Processes.ExitCaptureStoresCurrentFolder | DockerForm/Form1.cs:168 | the exit sync never writes the other state's folder and leaves the live world untouched |
| Processes.ExitCaptureTwice | DockerForm/Form1.cs:159-171 | a second exit capture against the same live world only changes the last-check time |
| Processes.ReapExited | DockerForm/Form1.cs:159-171 | exited processes leave the tracked set and the rest stay; a title is exit-captured iff an exited process was tracked for it, and untouched otherwise |
| Processes.ProcessMonitorStep | DockerForm/Form1.cs:131-175 | after a poll no exited process is tracked, every running matched process is tracked for a title that matches it, each title is untouched or exit-captured, and the live world is only read |
| Processes.UpdateGameItem | DockerForm/Form1.cs:208-236 | a new title is appended and listed, as the given title with last check now and its disabled entries untouched (its captured entries are stated by `Processes.NewTitleCapturesBothFolders`); a known listed title replaces its entry; a known unlisted title changes nothing; titles stay unique |
| Processes.NewTitleCapturesBothFolders | DockerForm/Form1.cs:217-219 | a new title leaves with each live artifact saved in both the docked and the undocked folder |
| PowerProfiles.GetLast | DockerForm/PowerProfile.cs:24-29 | the result has length min(n, len s) and is a suffix of s |
| PowerProfiles.HexRoundTrip | DockerForm/PowerProfile.cs:73 | reading back the upper-case hex of a number gives the number |
| PowerProfiles.IntHex | DockerForm/PowerProfile.cs:191 | the hex of an int is one to eight upper-case digits denoting its 32-bit two's complement, with no leading zero; zero prints as "0" |
| PowerProfiles.Wrap32 | DockerForm/PowerProfile.cs:72 | the wrapped product agrees with the exact product modulo 2^32 |
| PowerProfiles.TDPToHex | DockerForm/PowerProfile.cs:70-74 | a leading "0" and then hex digits denoting 8*v modulo 2^32, which is 8*v itself whenever that does not overflow; the digits after the prefix have no leading zero, and a zero product prints as "00" |
| PowerProfiles.TdpTailKeepsValue | DockerForm/PowerProfile.cs:89-92 | the last three digits the getter takes keep the whole wattage code for limits below 512 W |
| PowerProfiles.LastTwoDigits | DockerForm/PowerProfile.cs:191 | the last two hex digits of a number denote it modulo 256 |
| PowerProfiles.PowerBalanceHex | DockerForm/PowerProfile.cs:189-200 | exactly two hex digits, denoting the value modulo 256 (its low byte) |
| PowerProfiles.Override | DockerForm/PowerProfile.cs:205-206 | a present incoming setting wins; otherwise the prior value is kept as it is, absent or "0" included; the result is present exactly when either is |
| PowerProfiles.DigestProfile | DockerForm/PowerProfile.cs:203-234 | each setting is overridden exactly when the incoming profile has it; merging joins the names with a comma and keeps mask and priority; otherwise name, mask and priority are copied |
| PowerProfiles.DigestProperties | DockerForm/PowerProfile.cs:203-234 | digesting twice equals digesting once; a full incoming profile replaces every setting; an empty one leaves them all |
| PowerProfiles.Equals | DockerForm/PowerProfile.cs:236-246 | true exactly when all eight settings agree |
| PowerProfiles.EqualsIsEquivalence | DockerForm/PowerProfile.cs:236-246 | the comparison is reflexive, symmetric and transitive, and it ignores exactly name, mask and priority |
| PowerProfiles.LinesDiffer | DockerForm/PowerProfile.cs:252-269 | the lines of two different settings never coincide, whatever their values |
| PowerProfiles.LinesOf | DockerForm/PowerProfile.cs:250-269 | the output is empty iff no setting is present, and it holds exactly the lines of the present settings |
| PowerProfiles.LinesDistinct | DockerForm/PowerProfile.cs:250-269 | no line appears twice in the output |
| PowerProfiles.JoinAsWrittenIsJoin | DockerForm/PowerProfile.cs:271-278 | the "newline unless equal to the last" loop is a plain newline join with no trailing newline when no line repeats the last |
| PowerProfiles.Summary | DockerForm/PowerProfile.cs:248-281 | none (`null`) iff no setting is present; otherwise the present settings' lines in fixed order, joined by newlines |
| PowerProfiles.SummaryListsPresentSettings | DockerForm/PowerProfile.cs:250-269 | a setting's line appears in the summary exactly when the setting is present |

## Left out

- Threads, `Thread.Sleep`, the concurrent dictionaries and races between the monitors: each loop is one sequential step.
- WMI queries and `Process.HasExited`: the running processes and the set of exited ids are parameters of the poll.
- `RegistryManager`, `FileManager` and the temporary `temp.reg` file: a registry key is read and written as one opaque exported blob.
- I/O exceptions: reads and writes of an existing artifact always succeed.
- Environment-variable expansion in `GetUri`: an entry's location is taken as already expanded.
- The storage-root and title-name prefix of the snapshot folders: folders are the keys "docked" and "undocked". `GetCurrentState` gives one key for all titles.
- `DateTime.Now`: the current time is a parameter.
- Logging, toast notifications, `Serialize`, icons, `GameList.Sort` and the list box items: the listed titles are a set of GUIDs.
- Title discovery, executable lookup and shell helpers: not part of the core.
- `ComputeHex` for the voltage fields (`VoltageToHex`): floating-point rounding.
- `int.Parse` of the profile fields: the encodings take the parsed `int`.
- The per-field getters (`GetLongPowerMax` and the rest) and `Dispose`: plain accessors.
- `ToLower` of the current culture: only ASCII letters are folded.
- Removal by index in the exit loop: in the source, removing entry `i` while the loop moves on to `i + 1` can skip an exited process until the next poll. The model reaps every exited process in one poll.
- A tracked process whose title is no longer in the database: the source saves the stale title object. The model skips it.
- A failed registry export under the as-written existence test: the source would throw on the missing temporary file. The as-written member falls back to the kind-aware step.
- PowerProfiles.GetLast: the length is a `nat`. A negative length makes `Substring` throw in the source, and every caller passes 2 or 3.
- Processes.MatchTitles: states that the process is tracked for some matching title. It does not say that the last matching title in enumeration order wins, although the function computes exactly that.
- Processes.AddOrUpdate: keys the tracked set by process id. The source keys it by the `Process` object that each poll creates afresh (DockerForm/Form1.cs:139-154), so a running game is added again on every poll, and every copy triggers its own exit capture and save once the game exits. The model tracks each process once; by `Processes.ExitCaptureTwice`, the repeated captures would change only the last-check time.
- Processes.ReapExited: captures the title the database holds when the process exits. The source captures the title object stored at match time (DockerForm/Form1.cs:161-168), which is stale once `UpdateGameItem` has replaced the database entry (DockerForm/Form1.cs:229).
- PowerProfiles.DigestProfile: leaves out the closing `ComputeHex()` call (DockerForm/PowerProfile.cs:233), which refreshes the cached hex strings and throws a `FormatException` when a merged field is not a number (an incoming `longPowerMax` of "abc", say).
- Reconcile.ReconcileSetting: models the corrected, kind-aware existence test (a file entry's file, a registry entry's key), not the `File.Exists` of DockerForm/DatabaseManager.cs:233 as written; the as-written step is `Reconcile.ReconcileSettingAsWritten`.
- Reconcile.SanityCheck: runs the corrected, kind-aware existence test of `Reconcile.ReconcileSetting`, not `File.Exists` as written at DockerForm/DatabaseManager.cs:233.
- Dock.DockSync: runs the per-entry step of `DatabaseManager` (DockerForm/DatabaseManager.cs:79-153), in which a missing artifact disables the entry and a restore needs a stored snapshot. The form's own loop (DockerForm/Form1.cs:53-95) copies without either check.
- Processes.ProcessMonitorStep: states only that each title is untouched or exit-captured. The exact choice is in `Processes.ReapExited`.

## Findings

| source | as written | input that shows it | evidently intended | confidence | as-written member | corrected member |
|---|---|---|---|---|---|---|
| DockerForm/DatabaseManager.cs:233-237 | `File.Exists` is asked about the entry's location before its kind is checked, so a registry entry, whose location is a key path and not a file, is disabled | an enabled registry entry `HKEY_CURRENT_USER\Software\Game` whose key exports the same bytes as its snapshot under the current key | check a file entry's file, and a registry entry's export, as `UpdateFileAndRegistry` does (lines 84-126) | medium, not executed | Reconcile.ReconcileSettingAsWritten, Reconcile.RegistryEntryDisabledAsWritten | Reconcile.ReconcileSetting |

=== FILE: dock.dfy ===
/**
  The dock-state side of the main form (Form1): the per-title sync between the
  "docked" and "undocked" snapshot folders, the edge-triggered status monitor
  step, and the rule that derives the dock status from the video controllers.
  Each polling loop is modelled as one pure step.
*/
module Dock {
  import opened Wrappers
  import opened Model
  import opened SyncEngine
  import opened Reconcile

  // ---------------------------------------------------------------------------
  // Snapshot folders and the per-title dock sync
  // ---------------------------------------------------------------------------

  /** The snapshot folder of a dock state. The storage root and the title's
      folder name form a prefix common to both folders and are left off. */
  function StateFolder(docked: bool): string {
    if docked then "docked" else "undocked"
  }

  /** Where the live settings are saved before moving to `next`: the folder
      of the state being left. */
  function CaptureFolder(next: bool): string {
    StateFolder(!next)
  }

  /** Where the settings for `next` are restored from. */
  function RestoreFolder(next: bool): string {
    StateFolder(next)
  }

  /** The two folders of a transition always differ, and capture goes to
      "undocked" exactly when the next state is docked. */
  lemma FoldersDiffer(next: bool)
    ensures forall a: bool, b: bool :: StateFolder(a) == StateFolder(b) <==> a == b
    ensures CaptureFolder(next) != RestoreFolder(next)
    ensures CaptureFolder(next) == (if next then "undocked" else "docked")
    ensures RestoreFolder(next) == CaptureFolder(!next)
  {
  }

  /** `UpdateFilesAndRegistries(game, nextDockStatus, overwriteDB, restoreSETTING)`:
      the enabled entries capture into the folder being left (when
      `overwriteDB`) and restore the folder of `next` (when `restoreSETTING`);
      the title's last-check time then becomes `now`. */
  function DockSync(t: Title, next: bool, overwriteDB: bool, restoreSetting: bool, now: Time, w: World): (r: TitleSync)
    ensures r.title.(settings := t.settings, lastCheck := t.lastCheck) == t
    ensures r.title.lastCheck == now
    ensures |r.title.settings| == |t.settings|
    ensures forall i :: 0 <= i < |t.settings| ==>
              && (!t.settings[i].enabled ==> r.title.settings[i] == t.settings[i])
              && SameLocation(r.title.settings[i], t.settings[i])
              && StoresAgreeOff(r.title.settings[i].data, t.settings[i].data, {CaptureFolder(next)})
    ensures !overwriteDB ==> forall i :: 0 <= i < |t.settings| ==>
              r.title.settings[i].data == t.settings[i].data
    ensures !restoreSetting ==> r.world == w
    ensures !restoreSetting && overwriteDB ==> forall i :: 0 <= i < |t.settings| && t.settings[i].enabled ==>
              && (ReadLive(w, t.settings[i]).None? ==> r.title.settings[i] == t.settings[i].(enabled := false))
              && (ReadLive(w, t.settings[i]).Some? ==>
                    r.title.settings[i] == t.settings[i].(data := t.settings[i].data[CaptureFolder(next) := ReadLive(w, t.settings[i]).value]))
    ensures Framed(r.title.settings, t.settings, {CaptureFolder(next)})
    ensures forall o :: Untargeted(o, t.settings) ==> ReadLive(r.world, o) == ReadLive(w, o)
  {
    var synced := SyncSettings(t.settings, t.lastCheck, RestoreFolder(next), CaptureFolder(next),
                               overwriteDB, restoreSetting, w);
    TitleSync(t.(settings := synced.settings, lastCheck := now), synced.world)
  }

  /** A full dock swap on entries at distinct locations: each enabled entry
      whose artifact exists saves its bytes under the folder being left and
      then holds the snapshot of the folder of `next`, if there is one. */
  lemma DockSwapRestoresNextState(t: Title, next: bool, now: Time, w: World, i: int)
    requires DistinctLocations(t.settings)
    requires 0 <= i < |t.settings| && t.settings[i].enabled && ReadLive(w, t.settings[i]).Some?
    ensures var r := DockSync(t, next, true, true, now, w);
            && r.title.settings[i].data == t.settings[i].data[CaptureFolder(next) := ReadLive(w, t.settings[i]).value]
            && (RestoreFolder(next) in t.settings[i].data ==>
                  ReadLive(r.world, t.settings[i]) == Some(t.settings[i].data[RestoreFolder(next)]))
            && (RestoreFolder(next) !in t.settings[i].data ==>
                  ReadLive(r.world, t.settings[i]) == ReadLive(w, t.settings[i]))
  {
    FullSyncRestoresEachEntry(t.settings, t.lastCheck, RestoreFolder(next), CaptureFolder(next), w, i);
    FoldersDiffer(next);
  }

  /** `after` is `before` after a dock swap towards `docked` at time `now`:
      stamped with `now`, every other title field kept, and its entries
      changed only as a sync may change them, with stores changed only in the
      folder being left. */
  predicate Swapped(after: Title, before: Title, docked: bool, now: Time) {
    && after.lastCheck == now
    && after.(settings := before.settings, lastCheck := before.lastCheck) == before
    && Framed(after.settings, before.settings, {CaptureFolder(docked)})
  }

  /** `UpdateFilesAndRegistries(localDB, Plugged)`: a full dock swap of every
      title towards `docked`. */
  function FullSync(db: seq<Title>, docked: bool, now: Time, w: World): (r: DbSync)
    ensures |r.titles| == |db|
    ensures forall i :: 0 <= i < |db| ==> Swapped(r.titles[i], db[i], docked, now)
    ensures forall o :: UntargetedByDb(o, db) ==> ReadLive(r.world, o) == ReadLive(w, o)
  {
    if db == [] then DbSync([], w)
    else
      var head := DockSync(db[0], docked, true, true, now, w);
      var rest := FullSync(db[1..], docked, now, head.world);
      var titles := [head.title] + rest.titles;
      assert forall i :: 1 <= i < |db| ==> titles[i] == rest.titles[i - 1] && db[1..][i - 1] == db[i];
      UntargetedByDbCons(db);
      DbSync(titles, rest.world)
  }

  /** Entry `s`, the `j`-th of the synced title `t`, found the live bytes
      `live` and entered the state `docked`: those bytes are captured into
      the folder being left, and the world `rw` afterwards holds the
      snapshot of the folder entered, or `live` itself when there is none. */
  predicate EntersState(t: Title, rw: World, s: Setting, j: int, docked: bool, live: Option<Bytes>) {
    && live.Some?
    && 0 <= j < |t.settings|
    && t.settings[j].data == s.data[CaptureFolder(docked) := live.value]
    && (RestoreFolder(docked) in s.data ==> ReadLive(rw, s) == Some(s.data[RestoreFolder(docked)]))
    && (RestoreFolder(docked) !in s.data ==> ReadLive(rw, s) == live)
  }

  /** A full sync over a database whose entries are all at distinct
      locations enters the new state: each enabled entry whose artifact
      exists saves its bytes in the folder being left and ends holding the
      snapshot of the folder of `docked`, if there is one. */
  lemma {:induction false} FullSyncEntersState(db: seq<Title>, docked: bool, now: Time, w: World, i: int, j: int)
    requires DisjointTitles(db)
    requires 0 <= i < |db| && 0 <= j < |db[i].settings|
    requires db[i].settings[j].enabled && ReadLive(w, db[i].settings[j]).Some?
    ensures var r := FullSync(db, docked, now, w);
            EntersState(r.titles[i], r.world, db[i].settings[j], j, docked, ReadLive(w, db[i].settings[j]))
    decreases |db|, 1
  {
    if i == 0 {
      FullSyncFirstTitle(db, docked, now, w, j);
    } else {
      FullSyncLaterTitle(db, docked, now, w, i, j);
    }
  }

  /** The inductive step of `FullSyncEntersState`: a later title enters the
      new state as it does in the sync of the rest of the database. */
  lemma {:induction false} FullSyncLaterTitle(db: seq<Title>, docked: bool, now: Time, w: World, i: int, j: int)
    requires DisjointTitles(db)
    requires 1 <= i < |db| && 0 <= j < |db[i].settings|
    requires db[i].settings[j].enabled && ReadLive(w, db[i].settings[j]).Some?
    ensures var r := FullSync(db, docked, now, w);
            EntersState(r.titles[i], r.world, db[i].settings[j], j, docked, ReadLive(w, db[i].settings[j]))
    decreases |db|, 0
  {
    var head := DockSync(db[0], docked, true, true, now, w);
    LaterTitleUntouched(db, docked, now, w, i, j);
    FullSyncEntersState(db[1..], docked, now, head.world, i - 1, j);
    FullSyncCons(db, docked, now, w, i);
  }

  /** A later title's result, and the final world, come from the sync of
      the rest of the database. */
  lemma FullSyncCons(db: seq<Title>, docked: bool, now: Time, w: World, i: int)
    requires 1 <= i < |db|
    ensures var head := DockSync(db[0], docked, true, true, now, w);
            var rest := FullSync(db[1..], docked, now, head.world);
            && FullSync(db, docked, now, w).titles[i] == rest.titles[i - 1]
            && FullSync(db, docked, now, w).world == rest.world
  {
    var head := DockSync(db[0], docked, true, true, now, w);
    var rest := FullSync(db[1..], docked, now, head.world);
    FullSyncUnfold(db, docked, now, w);
    ConsIndex(head.title, rest.titles, i);
  }

  /** Past the head, a consed sequence is its tail shifted by one. */
  lemma ConsIndex<T>(h: T, rest: seq<T>, i: int)
    requires 1 <= i <= |rest|
    ensures ([h] + rest)[i] == rest[i - 1]
  {
  }

  /** A full sync over a non-empty database is the first title's swap
      followed by the sync of the rest. */
  lemma FullSyncUnfold(db: seq<Title>, docked: bool, now: Time, w: World)
    requires |db| > 0
    ensures var head := DockSync(db[0], docked, true, true, now, w);
            var rest := FullSync(db[1..], docked, now, head.world);
            FullSync(db, docked, now, w) == DbSync([head.title] + rest.titles, rest.world)
  {
  }

  /** The first title's swap leaves the artifacts of a later title alone,
      and the later titles stay disjoint. */
  lemma LaterTitleUntouched(db: seq<Title>, docked: bool, now: Time, w: World, i: int, j: int)
    requires DisjointTitles(db)
    requires 1 <= i < |db| && 0 <= j < |db[i].settings|
    ensures DisjointTitles(db[1..]) && db[1..][i - 1] == db[i]
    ensures ReadLive(DockSync(db[0], docked, true, true, now, w).world, db[i].settings[j]) == ReadLive(w, db[i].settings[j])
  {
    DisjointTail(db, i, j);
  }

  /** The first title's case of `FullSyncEntersState`: its own swap does the
      work and the later titles leave its artifacts alone. */
  lemma FullSyncFirstTitle(db: seq<Title>, docked: bool, now: Time, w: World, j: int)
    requires DisjointTitles(db)
    requires 0 < |db| && 0 <= j < |db[0].settings|
    requires db[0].settings[j].enabled && ReadLive(w, db[0].settings[j]).Some?
    ensures var r := FullSync(db, docked, now, w);
            EntersState(r.titles[0], r.world, db[0].settings[j], j, docked, ReadLive(w, db[0].settings[j]))
  {
    var s := db[0].settings[j];
    var head := DockSync(db[0], docked, true, true, now, w);
    var rest := FullSync(db[1..], docked, now, head.world);
    DisjointHead(db, j);
    DockSwapRestoresNextState(db[0], docked, now, w, j);
    assert ReadLive(rest.world, s) == ReadLive(head.world, s);
    assert FullSync(db, docked, now, w) == DbSync([head.title] + rest.titles, rest.world);
  }

  // ---------------------------------------------------------------------------
  // Status monitor
  // ---------------------------------------------------------------------------

  /** The form's global flags: the last status acted on, the status last
      reported by the controller monitor, and whether no edge was seen yet. */
  datatype Monitor = Monitor(prevDockStatus: bool, dockStatus: bool, isFirstBoot: bool)

  /** What one `UpdateGameDatabase` call runs. */
  datatype Action = Idle | RunSanityCheck | RunFullSync

  function ActionOf(m: Monitor): (r: Action)
    ensures r == Idle <==> m.prevDockStatus == m.dockStatus
    ensures r == RunSanityCheck <==> m.prevDockStatus != m.dockStatus && m.isFirstBoot
  {
    if m.prevDockStatus == m.dockStatus then Idle
    else if m.isFirstBoot then RunSanityCheck
    else RunFullSync
  }

  /** The flags after one `UpdateGameDatabase` call: an edge is acknowledged
      and first boot is over; without an edge nothing changes. */
  function NextMonitor(m: Monitor): (r: Monitor)
    ensures r.prevDockStatus == r.dockStatus == m.dockStatus
    ensures r.isFirstBoot <==> m.isFirstBoot && m.prevDockStatus == m.dockStatus
  {
    if m.prevDockStatus != m.dockStatus then Monitor(m.dockStatus, m.dockStatus, false) else m
  }

  datatype Tick = Tick(monitor: Monitor, titles: seq<Title>, world: World)

  /** `UpdateGameDatabase`: on a status edge, the first one runs the
      reconciliation pass against the current state's key (`stateKey` stands
      for `GetCurrentState`), every later one a full dock swap. */
  function UpdateGameDatabase(m: Monitor, db: seq<Title>, w: World, stateKey: bool -> string,
                              decide: (Title, Setting) -> bool, now: Time): (r: Tick)
    ensures m.prevDockStatus == m.dockStatus ==> r == Tick(m, db, w)
    ensures m.prevDockStatus != m.dockStatus ==>
              r.monitor == Monitor(m.dockStatus, m.dockStatus, false)
    ensures m.prevDockStatus != m.dockStatus && m.isFirstBoot ==>
              var p := SanityCheck(db, stateKey(m.dockStatus), decide, w);
              r.titles == p.titles && r.world == p.world
    ensures m.prevDockStatus != m.dockStatus && !m.isFirstBoot ==>
              r == Tick(r.monitor, FullSync(db, m.dockStatus, now, w).titles, FullSync(db, m.dockStatus, now, w).world)
  {
    match ActionOf(m)
    case Idle => Tick(m, db, w)
    case RunSanityCheck =>
      var p := SanityCheck(db, stateKey(m.dockStatus), decide, w);
      Tick(NextMonitor(m), p.titles, p.world)
    case RunFullSync =>
      var s := FullSync(db, m.dockStatus, now, w);
      Tick(NextMonitor(m), s.titles, s.world)
  }

  /** Right after a step, calling the step again does nothing. */
  lemma RepeatIsNoop(m: Monitor, db: seq<Title>, w: World, stateKey: bool -> string,
                     decide: (Title, Setting) -> bool, now: Time, later: Time)
    ensures var r := UpdateGameDatabase(m, db, w, stateKey, decide, now);
            && (!r.monitor.isFirstBoot || r.monitor == m)
            && UpdateGameDatabase(r.monitor, r.titles, r.world, stateKey, decide, later) == r
  {
  }

  /** How many reconciliation passes the status loop runs while the
      controller monitor reports `statuses`, one per poll. */
  function SanityRuns(m: Monitor, statuses: seq<bool>): nat
    decreases |statuses|
  {
    if statuses == [] then 0
    else
      var polled := m.(dockStatus := statuses[0]);
      (if ActionOf(polled) == RunSanityCheck then 1 else 0) + SanityRuns(NextMonitor(polled), statuses[1..])
  }

  /** The reconciliation pass runs exactly once over a run that starts at
      first boot and sees the status change at least once, and never
      otherwise. */
  lemma {:induction false} SanityCheckRunsOnce(m: Monitor, statuses: seq<bool>)
    decreases |statuses|
    ensures SanityRuns(m, statuses) ==
              if m.isFirstBoot && exists i :: 0 <= i < |statuses| && statuses[i] != m.prevDockStatus then 1 else 0
  {
    if statuses != [] {
      var polled := m.(dockStatus := statuses[0]);
      SanityCheckRunsOnce(NextMonitor(polled), statuses[1..]);
      if statuses[0] == m.prevDockStatus {
        assert NextMonitor(polled) == polled;
        if exists i :: 0 <= i < |statuses| && statuses[i] != m.prevDockStatus {
          var i :| 0 <= i < |statuses| && statuses[i] != m.prevDockStatus;
          assert statuses[1..][i - 1] == statuses[i];
        }
      } else {
        assert !NextMonitor(polled).isFirstBoot;
      }
    }
  }

  // ---------------------------------------------------------------------------
  // Video controller monitor
  // ---------------------------------------------------------------------------

  /** One WMI video controller record; `errorCode` is its
      `ConfigManagerErrorCode`. */
  datatype Controller = Controller(description: Option<string>, errorCode: nat)

  /** A controller the monitor counts: described and reporting no error. */
  predicate Healthy(c: Controller) {
    c.description.Some? && c.errorCode == 0
  }

  /** The positions of the healthy controllers. */
  function HealthyAt(cs: seq<Controller>): set<int> {
    set i | 0 <= i < |cs| && Healthy(cs[i])
  }

  /** The `VideoControllers` list: descriptions of the healthy controllers,
      in enumeration order, one per healthy controller
      (`ActiveControllersCount`, `ActiveControllersConcat`). */
  function ActiveControllers(cs: seq<Controller>): (r: seq<string>)
    ensures |r| <= |cs|
    ensures |r| == 0 <==> forall i :: 0 <= i < |cs| ==> !Healthy(cs[i])
    ensures forall d :: d in r <==> exists i :: 0 <= i < |cs| && Healthy(cs[i]) && cs[i].description.value == d
  {
    if cs == [] then []
    else
      var rest := ActiveControllers(cs[1..]);
      assert forall i :: 1 <= i < |cs| ==> cs[1..][i - 1] == cs[i];
      if Healthy(cs[0]) then [cs[0].description.value] + rest else rest
  }

  /** The list holds one description per healthy controller, so its length,
      which is all the status rule reads, counts the healthy controllers. */
  lemma {:induction false} ActiveControllersCount(cs: seq<Controller>)
    ensures |ActiveControllers(cs)| == |HealthyAt(cs)|
    decreases |cs|
  {
    if cs != [] {
      var n := |cs| - 1;
      var front := cs[..n];
      assert cs == front + [cs[n]];
      ActiveControllersConcat(front, [cs[n]]);
      ActiveControllersCount(front);
      assert HealthyAt(front) == set i | 0 <= i < n && Healthy(cs[i]);
      if Healthy(cs[n]) {
        assert HealthyAt(cs) == HealthyAt(front) + {n};
        assert n !in HealthyAt(front);
      } else {
        assert HealthyAt(cs) == HealthyAt(front);
      }
    }
  }

  /** The list of a concatenation is the concatenation of the lists, so the
      descriptions keep the enumeration order. */
  lemma {:induction false} ActiveControllersConcat(a: seq<Controller>, b: seq<Controller>)
    ensures ActiveControllers(a + b) == ActiveControllers(a) + ActiveControllers(b)
  {
    if a != [] {
      assert (a + b)[1..] == a[1..] + b;
      ActiveControllersConcat(a[1..], b);
    } else {
      assert a + b == b;
    }
  }

  /** `DockStatus` as the controller monitor sets it: docked unless exactly
      one healthy controller is present. */
  function DockStatusOf(cs: seq<Controller>): bool {
    |ActiveControllers(cs)| != 1
  }

  /** Controller `i` is the only healthy one. */
  predicate OnlyHealthy(cs: seq<Controller>, i: int) {
    0 <= i < |cs| && Healthy(cs[i]) && forall j :: 0 <= j < |cs| && j != i ==> !Healthy(cs[j])
  }

  /** Undocked exactly when a single controller is healthy. */
  lemma {:induction false} UndockedIffSingleHealthy(cs: seq<Controller>)
    ensures !DockStatusOf(cs) <==> exists i :: OnlyHealthy(cs, i)
  {
    if cs != [] {
      UndockedIffSingleHealthy(cs[1..]);
      if Healthy(cs[0]) {
        HealthyHead(cs);
      } else {
        UnhealthyHead(cs);
      }
    }
  }

  /** With a healthy first controller, the status is undocked exactly when
      no later controller is healthy, and then the first is the only one. */
  lemma HealthyHead(cs: seq<Controller>)
    requires cs != [] && Healthy(cs[0])
    ensures !DockStatusOf(cs) <==> exists i :: OnlyHealthy(cs, i)
  {
    var tail := cs[1..];
    assert forall i :: 1 <= i < |cs| ==> tail[i - 1] == cs[i];
    assert |ActiveControllers(cs)| == 1 + |ActiveControllers(tail)|;
    if !DockStatusOf(cs) {
      assert OnlyHealthy(cs, 0);
    } else {
      var k :| 0 <= k < |tail| && Healthy(tail[k]);
      assert Healthy(cs[k + 1]);
      forall i | 0 <= i < |cs| ensures !OnlyHealthy(cs, i) {
        if i == 0 {
          assert Healthy(cs[k + 1]) && k + 1 != i;
        } else {
          assert Healthy(cs[0]) && 0 != i;
        }
      }
    }
  }

  /** With an unhealthy first controller, the status and the single healthy
      controller are those of the rest of the list. */
  lemma UnhealthyHead(cs: seq<Controller>)
    requires cs != [] && !Healthy(cs[0])
    requires !DockStatusOf(cs[1..]) <==> exists i :: OnlyHealthy(cs[1..], i)
    ensures !DockStatusOf(cs) <==> exists i :: OnlyHealthy(cs, i)
  {
    var tail := cs[1..];
    assert ActiveControllers(cs) == ActiveControllers(tail);
    forall i | 1 <= i < |cs| ensures OnlyHealthy(cs, i) <==> OnlyHealthy(tail, i - 1) {
      assert tail[i - 1] == cs[i];
      if OnlyHealthy(tail, i - 1) {
        forall j | 0 <= j < |cs| && j != i ensures !Healthy(cs[j]) {
          if j > 0 { assert tail[j - 1] == cs[j]; }
        }
      }
      if OnlyHealthy(cs, i) {
        forall j | 0 <= j < |tail| && j != i - 1 ensures !Healthy(tail[j]) {
          assert tail[j] == cs[j + 1];
        }
      }
    }
    if exists i :: OnlyHealthy(tail, i) {
      var i :| OnlyHealthy(tail, i);
      assert OnlyHealthy(cs, i + 1);
    }
    if exists i :: OnlyHealthy(cs, i) {
      var i :| OnlyHealthy(cs, i);
      assert i != 0;
      assert OnlyHealthy(tail, i - 1);
    }
  }
}

=== FILE: model.dfy ===
/**
  The settings database: tracked titles ("games"), the settings entries each
  title owns with their per-state snapshot store, and the live artifacts (files
  and exported registry subtrees) those entries point at.
*/
module Model {
  import opened Wrappers

  type Bytes = seq<bv8>

  /** Snapshot store of one settings entry: state key -> captured bytes.
      Presence of a key is the only sign that the state was ever captured. */
  type Store = map<string, Bytes>

  /** Timestamps (`DateTime` values) are opaque. */
  type Time = int

  datatype SettingsType = File | Registry

  /** The title-level error state; `NoError` is the source's `ErrorCode.None`. */
  datatype ErrorCode = NoError | MissingExecutable | MissingFolder | MissingSettings

  /** One settings entry. `uri` is its resolved location: a file path for
      `File`, a registry key path for `Registry` (environment-variable
      expansion is opaque and taken as already done). */
  datatype Setting = Setting(kind: SettingsType, uri: string, enabled: bool, data: Store)

  /** A tracked title. `crc` is its fingerprint: the state key its settings
      were last synchronised against. */
  datatype Title = Title(
    guid: string,
    name: string,
    uri: string,
    executable: string,
    errorCode: ErrorCode,
    lastCheck: Time,
    crc: string,
    settings: seq<Setting>)

  datatype FileArtifact = FileArtifact(bytes: Bytes, lastWrite: Time)

  /** The machine outside the program: files on disk, and registry subtrees
      as the blobs the registry-export service would produce for them. */
  datatype World = World(files: map<string, FileArtifact>, registry: map<string, Bytes>)

  /** Two entries address the same live artifact. */
  predicate SameLocation(a: Setting, b: Setting) {
    a.kind == b.kind && a.uri == b.uri
  }

  /** The live artifact of a settings entry: the file's bytes, or the blob the
      registry export produces; `None` when the file or key does not exist. */
  function ReadLive(w: World, s: Setting): Option<Bytes> {
    match s.kind
    case File => if s.uri in w.files then Some(w.files[s.uri].bytes) else None
    case Registry => if s.uri in w.registry then Some(w.registry[s.uri]) else None
  }

  /** Writes `b` onto the live artifact of `s`. A file also gets its
      last-write time set to `stamp`; a registry import has no timestamp. */
  function WriteLive(w: World, s: Setting, b: Bytes, stamp: Time): (r: World)
    ensures ReadLive(r, s) == Some(b)
    ensures s.kind == File ==> r.files[s.uri].lastWrite == stamp
    ensures forall o :: !SameLocation(o, s) ==> ReadLive(r, o) == ReadLive(w, o)
    ensures ReadLive(w, s).Some? ==> SameExistence(r, w)
  {
    match s.kind
    case File => w.(files := w.files[s.uri := FileArtifact(b, stamp)])
    case Registry => w.(registry := w.registry[s.uri := b])
  }

  /** Two worlds hold the same files and registry keys, whatever their
      contents: an artifact exists in one exactly when it exists in the other. */
  predicate SameExistence(w1: World, w2: World) {
    w1.files.Keys == w2.files.Keys && w1.registry.Keys == w2.registry.Keys
  }

  /** Every enabled entry of `ss` whose artifact exists. */
  predicate AllLive(w: World, ss: seq<Setting>) {
    forall i :: 0 <= i < |ss| && ss[i].enabled ==> ReadLive(w, ss[i]).Some?
  }

  /** No two entries of `ss` address the same live artifact. */
  predicate DistinctLocations(ss: seq<Setting>) {
    forall i, j :: 0 <= i < j < |ss| ==> !SameLocation(ss[i], ss[j])
  }

  /** No entry of `x` addresses the same live artifact as an entry of `y`. */
  predicate Apart(x: seq<Setting>, y: seq<Setting>) {
    forall a, b :: 0 <= a < |x| && 0 <= b < |y| ==> !SameLocation(x[a], y[b])
  }

  /** No two entries anywhere in the database, within one title or across
      titles, address the same live artifact. */
  predicate DisjointTitles(db: seq<Title>) {
    && (forall i :: 0 <= i < |db| ==> DistinctLocations(db[i].settings))
    && (forall i, j :: 0 <= i < j < |db| ==> Apart(db[i].settings, db[j].settings))
  }

  /** `a` and `b` hold the same snapshots except possibly under `keys`. */
  predicate StoresAgreeOff(a: Store, b: Store, keys: set<string>) {
    a - keys == b - keys
  }

  /** The title database's key invariant: no two titles share a GUID. */
  predicate UniqueGuids(db: seq<Title>) {
    forall i, j :: 0 <= i < j < |db| ==> db[i].guid != db[j].guid
  }
}

=== FILE: power_profile.dfy ===
/**
  The value logic of a power profile: which settings a profile carries, how
  an incoming profile is folded into the applied one, the hexadecimal
  encodings handed to the tuning tool, equality, and the human-readable
  summary.
*/
module PowerProfiles {
  import opened Wrappers

  // ---------------------------------------------------------------------------
  // Integers and hexadecimal text
  // ---------------------------------------------------------------------------

  /** A C# `int`. */
  type Int32 = x: int | -0x8000_0000 <= x < 0x8000_0000


  predicate IsHexDigit(c: char) {
    '0' <= c <= '9' || 'A' <= c <= 'F'
  }

  predicate IsHexString(s: string) {
    forall i :: 0 <= i < |s| ==> IsHexDigit(s[i])
  }

  function HexDigit(d: nat): (c: char)
    requires d < 16
    ensures IsHexDigit(c)
  {
    if d < 10 then ('0' as int + d) as char else ('A' as int + d - 10) as char
  }

  function DigitValue(c: char): (d: nat)
    requires IsHexDigit(c)
    ensures d < 16 && HexDigit(d) == c
  {
    if c <= '9' then c as int - '0' as int else c as int - 'A' as int + 10
  }

  /** The value an upper-case hexadecimal string denotes ("" denotes 0). */
  function HexValue(s: string): nat
    requires IsHexString(s)
  {
    if s == [] then 0 else HexValue(s[..|s| - 1]) * 16 + DigitValue(s[|s| - 1])
  }

  /** `ToString("X")` of a non-negative value: upper-case digits, no leading
      zero, "0" for zero. */
  function Hex(n: nat): (r: string)
    ensures |r| >= 1 && IsHexString(r)
    ensures r[0] == '0' <==> n == 0
    ensures n < 16 <==> |r| == 1
    decreases n
  {
    if n < 16 then [HexDigit(n)] else Hex(n / 16) + [HexDigit(n % 16)]
  }

  /** Reading back what `Hex` writes gives the number. */
  lemma {:induction false} HexRoundTrip(n: nat)
    ensures HexValue(Hex(n)) == n
    decreases n
  {
    if n >= 16 {
      var r := Hex(n);
      HexRoundTrip(n / 16);
      assert r[..|r| - 1] == Hex(n / 16);
      assert DigitValue(r[|r| - 1]) == n % 16;
    }
  }

  /** `16` to the power `k`, the number of values `k` hex digits can spell. */
  function Pow16(k: nat): (r: nat)
    ensures r >= 1
  {
    if k == 0 then 1 else 16 * Pow16(k - 1)
  }

  /** A leading zero does not change the value. */
  lemma {:induction false} LeadingZero(s: string)
    requires IsHexString(s)
    ensures IsHexString("0" + s) && HexValue("0" + s) == HexValue(s)
    decreases |s|
  {
    var z := "0" + s;
    assert forall i :: 1 <= i < |z| ==> z[i] == s[i - 1];
    if s != [] {
      assert z[..|z| - 1] == "0" + s[..|s| - 1];
      LeadingZero(s[..|s| - 1]);
    }
  }

  // ---------------------------------------------------------------------------
  // GetLast and the encodings
  // ---------------------------------------------------------------------------

  /** `GetLast(s, n)`: the last `n` characters of `s`, or all of `s` when it
      is not longer than `n`. */
  function GetLast(s: string, n: nat): (r: string)
    ensures |r| == if n < |s| then n else |s|
    ensures s == s[..|s| - |r|] + r
  {
    if n >= |s| then s else s[|s| - n..]
  }

  /** Peeling the last digit off `Hex(n)`. */
  lemma HexSnoc(n: nat)
    requires n >= 16
    ensures Hex(n) == Hex(n / 16) + [HexDigit(n % 16)]
  {
  }

  /** `n % 256` from its two lowest hexadecimal digits. */
  lemma LowByte(n: nat)
    ensures n % 256 == (n / 16) % 16 * 16 + n % 16
  {
    var a, b := n / 16, n % 16;
    var c, e := a / 16, a % 16;
    assert n == 16 * a + b;
    assert a == 16 * c + e;
    assert n == 256 * c + (16 * e + b);
  }

  /** The value of a two-digit string. */
  lemma TwoDigitValue(x: char, y: char)
    requires IsHexDigit(x) && IsHexDigit(y)
    ensures IsHexString([x, y]) && HexValue([x, y]) == DigitValue(x) * 16 + DigitValue(y)
  {
    assert [x, y][..1] == [x];
    assert [x][..0] == [];
    assert HexValue([x]) == DigitValue(x);
  }

  /** At most two digits below 256. */
  lemma ShortHex(n: nat)
    requires n < 256
    ensures GetLast(Hex(n), 2) == Hex(n)
  {
    HexLength(n);
    assert Pow16(2) == 256;
  }

  /** From 256 on, the last two digits are the two lowest of `n`. */
  lemma LongHexTail(n: nat)
    requires n >= 256
    ensures GetLast(Hex(n), 2) == [HexDigit(n / 16 % 16), HexDigit(n % 16)]
  {
    var a := n / 16;
    HexSnoc(n);
    HexSnoc(a);
    assert Hex(n) == Hex(a / 16) + [HexDigit(a % 16)] + [HexDigit(n % 16)];
  }

  /** The value of the two digits written for `d1` and `d0`. */
  lemma DigitPairValue(d1: nat, d0: nat)
    requires d1 < 16 && d0 < 16
    ensures IsHexString([HexDigit(d1), HexDigit(d0)])
    ensures HexValue([HexDigit(d1), HexDigit(d0)]) == d1 * 16 + d0
  {
    TwoDigitValue(HexDigit(d1), HexDigit(d0));
  }

  /** Below 256 the last two digits are all of them. */
  lemma LastTwoDigitsShort(n: nat)
    requires n < 256
    ensures IsHexString(GetLast(Hex(n), 2)) && HexValue(GetLast(Hex(n), 2)) == n % 256
  {
    var h := Hex(n);
    ShortHex(n);
    HexRoundTrip(n);
    assert GetLast(h, 2) == h && HexValue(h) == n;
    assert n % 256 == n;
  }

  /** From 256 on, the last two digits are the two lowest of `n`. */
  lemma LastTwoDigitsLong(n: nat)
    requires n >= 256
    ensures IsHexString(GetLast(Hex(n), 2)) && HexValue(GetLast(Hex(n), 2)) == n % 256
  {
    var d1, d0 := n / 16 % 16, n % 16;
    LongHexTail(n);
    DigitPairValue(d1, d0);
    LowByte(n);
  }

  /** The last two hexadecimal digits of `n` denote `n` modulo 256. */
  lemma LastTwoDigits(n: nat)
    ensures IsHexString(GetLast(Hex(n), 2))
    ensures HexValue(GetLast(Hex(n), 2)) == n % 256
  {
    if n < 256 {
      LastTwoDigitsShort(n);
    } else {
      LastTwoDigitsLong(n);
    }
  }

  /** Reducing modulo 2^32 keeps the low byte. */
  lemma LowByteOfWrapped(x: Int32)
    ensures (x % 0x1_0000_0000) % 256 == x % 256
  {
    if x < 0 {
      assert x % 0x1_0000_0000 == x + 0x1_0000_0000;
    } else {
      assert x % 0x1_0000_0000 == x;
    }
  }

  /** `ToString("X")` of an `int`: a negative value prints as its 32-bit
      two's complement. */
  function IntHex(v: Int32): (r: string)
    ensures IsHexString(r) && 1 <= |r| <= 8
    ensures HexValue(r) == v % 0x1_0000_0000
    ensures r[0] == '0' <==> v % 0x1_0000_0000 == 0
    ensures v % 0x1_0000_0000 == 0 ==> r == "0"
  {
    var u := v % 0x1_0000_0000;
    HexRoundTrip(u);
    HexLength(u);
    Hex(u)
  }

  /** At most eight digits for a 32-bit value. */
  lemma {:induction false} HexLength(n: nat)
    ensures n < Pow16(8) ==> |Hex(n)| <= 8
    ensures forall k: nat :: n < Pow16(k) && k >= 1 ==> |Hex(n)| <= k
    decreases n
  {
    if n >= 16 {
      HexLength(n / 16);
      forall k: nat | n < Pow16(k) && k >= 1 ensures |Hex(n)| <= k {
        assert k >= 2;
        assert Pow16(k) == 16 * Pow16(k - 1);
        assert n / 16 < Pow16(k - 1);
      }
    }
  }

  /** `TDPToHex(v)`: a "0" followed by the hexadecimal of `8 * v`, the
      multiplication wrapping as C# `int` arithmetic does. */
  function TDPToHex(v: Int32): (r: string)
    ensures |r| >= 2 && r[0] == '0' && IsHexString(r)
    ensures HexValue(r) == (8 * v) % 0x1_0000_0000
    ensures 0 <= 8 * v < 0x1_0000_0000 ==> HexValue(r) == 8 * v
    ensures r[1] == '0' <==> (8 * v) % 0x1_0000_0000 == 0
    ensures (8 * v) % 0x1_0000_0000 == 0 ==> r == "00"
  {
    var product := Wrap32(8 * v);
    var r := "0" + IntHex(product);
    LeadingZero(IntHex(product));
    r
  }

  /** Reinterprets an unbounded product as a C# `int`, as unchecked
      arithmetic does. */
  function Wrap32(x: int): (r: Int32)
    ensures r % 0x1_0000_0000 == x % 0x1_0000_0000
  {
    var u := x % 0x1_0000_0000;
    if u < 0x8000_0000 then u else u - 0x1_0000_0000
  }

  /** The power-balance encoding: the last two hexadecimal digits of the
      value, left-padded with "0" to exactly two. */
  function PowerBalanceHex(v: Int32): (r: string)
    ensures |r| == 2 && IsHexString(r)
    ensures HexValue(r) == v % 256
  {
    var hex := GetLast(IntHex(v), 2);
    LastTwoDigits(v % 0x1_0000_0000);
    LowByteOfWrapped(v);
    if |hex| < 2 then
      LeadingZero(hex);
      "0" + hex
    else hex
  }

  /** The last three digits of a TDP encoding are the whole wattage code
      while `8 * v` fits in three hexadecimal digits. */
  lemma TdpTailKeepsValue(v: Int32)
    requires 0 <= v < 512
    ensures IsHexString(GetLast(TDPToHex(v), 3)) && HexValue(GetLast(TDPToHex(v), 3)) == 8 * v
  {
    var h := Hex(8 * v);
    HexLength(8 * v);
    assert Pow16(3) == 4096;
    assert TDPToHex(v) == "0" + h;
    HexRoundTrip(8 * v);
    LeadingZero(h);
    if |h| == 3 {
      assert GetLast(TDPToHex(v), 3) == h;
    } else {
      assert GetLast(TDPToHex(v), 3) == "0" + h;
    }
  }

  // ---------------------------------------------------------------------------
  // Profiles
  // ---------------------------------------------------------------------------

  /** The eight tunable settings, in the order the summary lists them. */
  datatype Field =
    | LongPowerMax | ShortPowerMax
    | CpuCore | CpuCache | IntelGpu | SystemAgent
    | PowerBalanceCpu | PowerBalanceGpu

  /** A profile: each setting is a decimal string or absent (`null`). */
  datatype PowerProfile = PowerProfile(
    longPowerMax: Option<string>,
    shortPowerMax: Option<string>,
    cpuCore: Option<string>,
    cpuCache: Option<string>,
    intelGpu: Option<string>,
    systemAgent: Option<string>,
    powerBalanceCpu: Option<string>,
    powerBalanceGpu: Option<string>,
    name: string,
    applyMask: int,
    applyPriority: int)

  function Get(p: PowerProfile, f: Field): Option<string> {
    match f
    case LongPowerMax => p.longPowerMax
    case ShortPowerMax => p.shortPowerMax
    case CpuCore => p.cpuCore
    case CpuCache => p.cpuCache
    case IntelGpu => p.intelGpu
    case SystemAgent => p.systemAgent
    case PowerBalanceCpu => p.powerBalanceCpu
    case PowerBalanceGpu => p.powerBalanceGpu
  }

  /** The `Has*` test: the setting is present and is not "0". */
  predicate Has(v: Option<string>) {
    v.Some? && v.value != "0"
  }

  /** The settings the incoming profile carries, kept over the prior ones:
      a present incoming setting wins, otherwise the prior one is kept as it
      is; the result is present exactly when either of them is. */
  function Override(mine: Option<string>, incoming: Option<string>): (r: Option<string>)
    ensures r == incoming || r == mine
    ensures Has(r) <==> Has(incoming) || Has(mine)
    ensures Has(incoming) ==> r == incoming
    ensures !Has(incoming) ==> r == mine
  {
    if Has(incoming) then incoming else mine
  }

  /** `DigestProfile(q, merging)` applied to `p`. */
  function DigestProfile(p: PowerProfile, q: PowerProfile, merging: bool): (r: PowerProfile)
    ensures forall f :: Get(r, f) == if Has(Get(q, f)) then Get(q, f) else Get(p, f)
    ensures merging ==> r.applyMask == p.applyMask && r.applyPriority == p.applyPriority
    ensures merging && p.name == "" ==> r.name == q.name
    ensures merging && p.name != "" ==> r.name == p.name + "," + q.name
    ensures !merging ==> r.name == q.name && r.applyMask == q.applyMask && r.applyPriority == q.applyPriority
  {
    var settings := p.(
      longPowerMax := Override(p.longPowerMax, q.longPowerMax),
      shortPowerMax := Override(p.shortPowerMax, q.shortPowerMax),
      cpuCore := Override(p.cpuCore, q.cpuCore),
      intelGpu := Override(p.intelGpu, q.intelGpu),
      cpuCache := Override(p.cpuCache, q.cpuCache),
      systemAgent := Override(p.systemAgent, q.systemAgent),
      powerBalanceCpu := Override(p.powerBalanceCpu, q.powerBalanceCpu),
      powerBalanceGpu := Override(p.powerBalanceGpu, q.powerBalanceGpu));
    if merging then settings.(name := p.name + (if p.name == "" then "" else ",") + q.name)
    else settings.(name := q.name, applyMask := q.applyMask, applyPriority := q.applyPriority)
  }

  /** `Equals`: the eight settings agree; name, mask and priority are not
      compared. */
  function Equals(p: PowerProfile, q: PowerProfile): (r: bool)
    ensures r <==> forall f :: Get(p, f) == Get(q, f)
  {
    assert Get(p, LongPowerMax) == p.longPowerMax && Get(p, ShortPowerMax) == p.shortPowerMax;
    assert Get(q, LongPowerMax) == q.longPowerMax && Get(q, ShortPowerMax) == q.shortPowerMax;
    assert Get(p, CpuCore) == p.cpuCore && Get(p, CpuCache) == p.cpuCache;
    assert Get(q, CpuCore) == q.cpuCore && Get(q, CpuCache) == q.cpuCache;
    assert Get(p, IntelGpu) == p.intelGpu && Get(p, SystemAgent) == p.systemAgent;
    assert Get(q, IntelGpu) == q.intelGpu && Get(q, SystemAgent) == q.systemAgent;
    assert Get(p, PowerBalanceCpu) == p.powerBalanceCpu && Get(p, PowerBalanceGpu) == p.powerBalanceGpu;
    assert Get(q, PowerBalanceCpu) == q.powerBalanceCpu && Get(q, PowerBalanceGpu) == q.powerBalanceGpu;
    !(p.longPowerMax != q.longPowerMax ||
      p.shortPowerMax != q.shortPowerMax ||
      p.cpuCore != q.cpuCore || p.cpuCache != q.cpuCache ||
      p.intelGpu != q.intelGpu || p.systemAgent != q.systemAgent ||
      p.powerBalanceCpu != q.powerBalanceCpu || p.powerBalanceGpu != q.powerBalanceGpu)
  }

  /** `Equals` is an equivalence that ignores exactly the label fields. */
  lemma EqualsIsEquivalence(p: PowerProfile, q: PowerProfile, s: PowerProfile)
    ensures Equals(p, p)
    ensures Equals(p, q) <==> Equals(q, p)
    ensures Equals(p, q) && Equals(q, s) ==> Equals(p, s)
    ensures Equals(p, q) <==>
              p == q.(name := p.name, applyMask := p.applyMask, applyPriority := p.applyPriority)
  {
    if Equals(p, q) {
      assert forall f :: Get(p, f) == Get(q, f);
      assert p.longPowerMax == q.longPowerMax && p.shortPowerMax == q.shortPowerMax;
      assert p.cpuCore == q.cpuCore && p.cpuCache == q.cpuCache;
      assert p.intelGpu == q.intelGpu && p.systemAgent == q.systemAgent;
      assert p.powerBalanceCpu == q.powerBalanceCpu && p.powerBalanceGpu == q.powerBalanceGpu;
    }
  }

  /** Folding in a profile twice is the same as folding it in once; an
      incoming profile with every setting replaces them all, and one with
      none leaves them all. */
  lemma DigestProperties(p: PowerProfile, q: PowerProfile)
    ensures DigestProfile(DigestProfile(p, q, false), q, false) == DigestProfile(p, q, false)
    ensures (forall f :: Has(Get(q, f))) ==> Equals(DigestProfile(p, q, true), q)
    ensures (forall f :: !Has(Get(q, f))) ==> Equals(DigestProfile(p, q, true), p)
    ensures (forall f :: !Has(Get(q, f))) ==>
              DigestProfile(p, q, false) == p.(name := q.name, applyMask := q.applyMask, applyPriority := q.applyPriority)
  {
    var once := DigestProfile(p, q, false);
    var twice := DigestProfile(once, q, false);
    assert forall f :: Get(twice, f) == Get(once, f);
    assert Equals(twice, once);
    EqualsIsEquivalence(twice, once, once);
    if forall f :: !Has(Get(q, f)) {
      var e := p.(name := q.name, applyMask := q.applyMask, applyPriority := q.applyPriority);
      assert forall f :: Get(once, f) == Get(e, f);
      assert Equals(once, e);
      EqualsIsEquivalence(once, e, e);
    }
  }

  // ---------------------------------------------------------------------------
  // The summary text
  // ---------------------------------------------------------------------------

  /** The fields in the order `ToString` lists them. */
  const Order: seq<Field> := [LongPowerMax, ShortPowerMax, CpuCore, CpuCache, IntelGpu, SystemAgent,
                              PowerBalanceCpu, PowerBalanceGpu]

  function Label(f: Field): string {
    match f
    case LongPowerMax => "TurboBoost LongPowerMax: "
    case ShortPowerMax => "TurboBoost ShortPowerMax: "
    case CpuCore => "CPU Core: "
    case CpuCache => "CPU Cache: "
    case IntelGpu => "GPU Core: "
    case SystemAgent => "System Agent: "
    case PowerBalanceCpu => "PowerBalance CPU: "
    case PowerBalanceGpu => "PowerBalance GPU: "
  }

  /** Watts for the TDP limits, millivolts for the voltage offsets, no unit
      for the power balance. */
  function Unit(f: Field): string {
    match f
    case LongPowerMax => "W"
    case ShortPowerMax => "W"
    case PowerBalanceCpu => ""
    case PowerBalanceGpu => ""
    case _ => "mV"
  }

  function Line(p: PowerProfile, f: Field): string {
    Label(f) + Get(p, f).GetOr("") + Unit(f)
  }

  /** The position at which the labels of two different fields first differ. */
  function Split(f: Field, g: Field): nat {
    if Label(f)[0] != Label(g)[0] then 0
    else if Label(f)[0] == 'T' then 11
    else if Label(f)[0] == 'C' then 5
    else 13
  }

  /** Lines of different fields differ, whatever the values, because their
      labels do. */
  lemma LinesDiffer(p: PowerProfile, q: PowerProfile, f: Field, g: Field)
    requires f != g
    ensures Line(p, f) != Line(q, g)
  {
    var k := Split(f, g);
    LabelsDiffer(f, g);
    LineStartsWithLabel(p, f, k);
    LineStartsWithLabel(q, g, k);
  }

  /** Two different labels differ at position `Split`. */
  lemma LabelsDiffer(f: Field, g: Field)
    requires f != g
    ensures Split(f, g) < |Label(f)| && Split(f, g) < |Label(g)|
    ensures Label(f)[Split(f, g)] != Label(g)[Split(f, g)]
  {
  }

  /** A line starts with its field's label. */
  lemma LineStartsWithLabel(p: PowerProfile, f: Field, k: nat)
    requires k < |Label(f)|
    ensures Line(p, f)[k] == Label(f)[k]
  {
  }

  /** The summary lines of the present settings among `fs`, in order. */
  function LinesOf(p: PowerProfile, fs: seq<Field>): (r: seq<string>)
    ensures |r| == 0 <==> forall i :: 0 <= i < |fs| ==> !Has(Get(p, fs[i]))
    ensures forall line :: line in r <==> exists j :: 0 <= j < |fs| && Has(Get(p, fs[j])) && line == Line(p, fs[j])
  {
    if fs == [] then []
    else
      var rest := LinesOf(p, fs[1..]);
      assert forall j :: 1 <= j < |fs| ==> fs[1..][j - 1] == fs[j];
      if Has(Get(p, fs[0])) then [Line(p, fs[0])] + rest else rest
  }

  /** No field appears twice. */
  predicate DistinctFields(fs: seq<Field>) {
    forall i, j :: 0 <= i < j < |fs| ==> fs[i] != fs[j]
  }

  /** `Order` lists every field once. */
  lemma OrderComplete()
    ensures forall f :: f in Order
    ensures DistinctFields(Order)
  {
    forall f ensures f in Order {
      match f
      case LongPowerMax => assert Order[0] == f;
      case ShortPowerMax => assert Order[1] == f;
      case CpuCore => assert Order[2] == f;
      case CpuCache => assert Order[3] == f;
      case IntelGpu => assert Order[4] == f;
      case SystemAgent => assert Order[5] == f;
      case PowerBalanceCpu => assert Order[6] == f;
      case PowerBalanceGpu => assert Order[7] == f;
    }
  }

  predicate DistinctLines(r: seq<string>) {
    forall i, j :: 0 <= i < j < |r| ==> r[i] != r[j]
  }

  /** The lines of distinct fields are pairwise distinct. */
  lemma {:induction false} LinesDistinct(p: PowerProfile, fs: seq<Field>)
    requires DistinctFields(fs)
    ensures DistinctLines(LinesOf(p, fs))
    decreases |fs|
  {
    if fs != [] {
      var tail := fs[1..];
      assert DistinctFields(tail) by {
        assert forall i :: 0 <= i < |tail| ==> tail[i] == fs[i + 1];
      }
      LinesDistinct(p, tail);
      var rest := LinesOf(p, tail);
      if Has(Get(p, fs[0])) {
        HeadLineFresh(p, fs);
        ConsDistinct(Line(p, fs[0]), rest);
      }
    }
  }

  /** The first field's line is not among the lines of the fields after it. */
  lemma HeadLineFresh(p: PowerProfile, fs: seq<Field>)
    requires |fs| > 0 && DistinctFields(fs)
    ensures Line(p, fs[0]) !in LinesOf(p, fs[1..])
  {
    var tail := fs[1..];
    if Line(p, fs[0]) in LinesOf(p, tail) {
      var j :| 0 <= j < |tail| && Has(Get(p, tail[j])) && Line(p, fs[0]) == Line(p, tail[j]);
      assert tail[j] == fs[j + 1];
      LinesDiffer(p, p, tail[j], fs[0]);
    }
  }

  /** A fresh line in front of distinct lines keeps them distinct. */
  lemma ConsDistinct(x: string, rest: seq<string>)
    requires DistinctLines(rest) && x !in rest
    ensures DistinctLines([x] + rest)
  {
    var r := [x] + rest;
    forall i, j | 0 <= i < j < |r| ensures r[i] != r[j] {
      assert r[j] == rest[j - 1];
      if i > 0 {
        assert r[i] == rest[i - 1];
      }
    }
  }

  /** The loop of `ToString`: each line followed by "\n" unless it equals
      the last line. */
  function JoinAsWritten(lines: seq<string>, latest: string): string {
    if lines == [] then ""
    else lines[0] + (if lines[0] == latest then "" else "\n") + JoinAsWritten(lines[1..], latest)
  }

  /** Lines joined by "\n", with no trailing newline. */
  function Join(lines: seq<string>): string {
    if lines == [] then ""
    else if |lines| == 1 then lines[0]
    else lines[0] + "\n" + Join(lines[1..])
  }

  /** When no earlier line repeats the last one, the loop of `ToString` is
      a plain newline join. */
  lemma {:induction false} JoinAsWrittenIsJoin(lines: seq<string>)
    requires |lines| > 0
    requires forall i :: 0 <= i < |lines| - 1 ==> lines[i] != lines[|lines| - 1]
    ensures JoinAsWritten(lines, lines[|lines| - 1]) == Join(lines)
    decreases |lines|
  {
    if |lines| > 1 {
      var tail := lines[1..];
      assert tail[|tail| - 1] == lines[|lines| - 1];
      assert forall i :: 0 <= i < |tail| - 1 ==> tail[i] == lines[i + 1];
      JoinAsWrittenIsJoin(tail);
    } else {
      assert lines[1..] == [];
    }
  }

  /** `ToString`: `None` (the source's `null`) when no setting is present,
      otherwise the present settings' lines in the fixed order, separated by
      "\n". */
  function Summary(p: PowerProfile): (r: Option<string>)
    ensures r.None? <==> forall f :: !Has(Get(p, f))
    ensures r.Some? ==> r.value == Join(LinesOf(p, Order))
  {
    var output := LinesOf(p, Order);
    if |output| == 0 then
      OrderComplete();
      forall f ensures !Has(Get(p, f)) {
        assert f in Order;
        var i :| 0 <= i < |Order| && Order[i] == f;
      }
      None
    else
      OrderComplete();
      LinesDistinct(p, Order);
      forall i | 0 <= i < |output| - 1 ensures output[i] != output[|output| - 1] {
        assert DistinctLines(output);
      }
      JoinAsWrittenIsJoin(output);
      Some(JoinAsWritten(output, output[|output| - 1]))
  }

  /** The summary shows a setting's line exactly when the setting is
      present. */
  lemma SummaryListsPresentSettings(p: PowerProfile, f: Field)
    ensures Line(p, f) in LinesOf(p, Order) <==> Has(Get(p, f))
  {
    OrderComplete();
    assert f in Order;
    var j :| 0 <= j < |Order| && Order[j] == f;
    if Line(p, f) in LinesOf(p, Order) {
      var k :| 0 <= k < |Order| && Has(Get(p, Order[k])) && Line(p, f) == Line(p, Order[k]);
      if Order[k] != f {
        LinesDiffer(p, p, Order[k], f);
      }
    }
  }
}

=== FILE: processes.dfy ===
/**
  The process monitor (Form1.ProcessMonitor) and the title-list update
  (Form1.UpdateGameItem). One poll correlates running processes with titles
  by case-insensitive executable path, then reaps the tracked processes that
  have exited: each exit saves the title's live settings into the folder of
  the current dock state, without restoring anything.
*/
module Processes {
  import opened Wrappers
  import opened Model
  import opened SyncEngine
  import opened Dock

  // ---------------------------------------------------------------------------
  // Case-insensitive paths
  // ---------------------------------------------------------------------------

  /** `ToLower` on one character; only ASCII letters are folded. */
  function LowerChar(c: char): char {
    if 'A' <= c <= 'Z' then (c as int + 32) as char else c
  }

  function UpperChar(c: char): char {
    if 'a' <= c <= 'z' then (c as int - 32) as char else c
  }

  /** Folds `s` to lower case: no capital letter is left, and every
      character is the one of `s` up to case. */
  function Lower(s: string): (r: string)
    ensures |r| == |s|
    ensures forall i :: 0 <= i < |s| ==> !('A' <= r[i] <= 'Z')
    ensures forall i :: 0 <= i < |s| ==> UpperChar(r[i]) == UpperChar(s[i])
  {
    seq(|s|, i requires 0 <= i < |s| => LowerChar(s[i]))
  }

  /** The only character that is not a capital and agrees with `c` up to
      case is `LowerChar(c)`. */
  lemma LowerCharUnique(c: char, d: char)
    requires !('A' <= d <= 'Z') && UpperChar(d) == UpperChar(c)
    ensures d == LowerChar(c)
  {
  }

  /** `Lower` folds each character on its own. */
  lemma LowerPointwise(s: string)
    ensures forall i :: 0 <= i < |s| ==> Lower(s)[i] == LowerChar(s[i])
  {
    forall i | 0 <= i < |s| ensures Lower(s)[i] == LowerChar(s[i]) {
      LowerCharUnique(s[i], Lower(s)[i]);
    }
  }

  function Upper(s: string): (r: string)
    ensures |r| == |s| && forall i :: 0 <= i < |s| ==> r[i] == UpperChar(s[i])
  {
    seq(|s|, i requires 0 <= i < |s| => UpperChar(s[i]))
  }

  /** Folding to lower case forgets any earlier case change. */
  lemma LowerForgetsCase(s: string)
    ensures Lower(Upper(s)) == Lower(s)
    ensures Lower(Lower(s)) == Lower(s)
  {
    LowerPointwise(s);
    LowerPointwise(Upper(s));
    LowerPointwise(Lower(s));
    assert forall i :: 0 <= i < |s| ==> LowerChar(UpperChar(s[i])) == LowerChar(s[i]);
  }

  predicate IsSeparator(c: char) {
    c == '\\' || c == '/'
  }

  /** `Path.Combine(a, b)` for Windows paths: a rooted `b` (leading separator
      or drive letter) wins; otherwise a separator is inserted unless `a`
      already ends with one. */
  function PathCombine(a: string, b: string): string {
    if b == "" then a
    else if a == "" then b
    else if IsSeparator(b[0]) || (|b| >= 2 && b[1] == ':') then b
    else if IsSeparator(a[|a| - 1]) || a[|a| - 1] == ':' then a + b
    else a + "\\" + b
  }

  /** A process belongs to a title when its executable path, folded to lower
      case, equals the title's folder joined with its executable, folded the
      same way. A process whose path is unknown has the path "". */
  predicate Matches(t: Title, path: Option<string>) {
    Lower(PathCombine(t.uri, t.executable)) == Lower(path.GetOr(""))
  }

  /** Matching ignores the case of the process path, and an unknown path only
      matches a title whose joined path is empty. */
  lemma MatchIgnoresCase(t: Title, p: string)
    ensures Matches(t, Some(Upper(p))) <==> Matches(t, Some(p))
    ensures Matches(t, Some(Lower(p))) <==> Matches(t, Some(p))
    ensures Matches(t, None) <==> PathCombine(t.uri, t.executable) == ""
  {
    LowerForgetsCase(p);
  }

  // ---------------------------------------------------------------------------
  // Tracked processes
  // ---------------------------------------------------------------------------

  /** A running process: its id and executable path (null when unknown). */
  datatype ProcInfo = ProcInfo(pid: int, path: Option<string>)

  /** One entry of `GameProcesses`: a process and the GUID of its title. */
  datatype Track = Track(pid: int, guid: string)

  predicate UniquePids(tracked: seq<Track>) {
    forall i, j :: 0 <= i < j < |tracked| ==> tracked[i].pid != tracked[j].pid
  }

  /** The title a process is tracked for. */
  function TrackedFor(tracked: seq<Track>, pid: int): (r: Option<string>)
    ensures r.Some? <==> exists i :: 0 <= i < |tracked| && tracked[i].pid == pid
  {
    if tracked == [] then None
    else if tracked[0].pid == pid then Some(tracked[0].guid)
    else
      var r := TrackedFor(tracked[1..], pid);
      assert forall i :: 1 <= i < |tracked| ==> tracked[1..][i - 1] == tracked[i];
      r
  }

  /** `AddOrUpdate(pid, guid)`: the process is now tracked for `guid`;
      nothing else changes. */
  function AddOrUpdate(tracked: seq<Track>, pid: int, guid: string): (r: seq<Track>)
    requires UniquePids(tracked)
    ensures UniquePids(r)
    ensures TrackedFor(r, pid) == Some(guid)
    ensures forall q :: q != pid ==> TrackedFor(r, q) == TrackedFor(tracked, q)
  {
    if tracked == [] then [Track(pid, guid)]
    else if tracked[0].pid == pid then
      assert forall q :: q != pid ==> TrackedFor([Track(pid, guid)] + tracked[1..], q) == TrackedFor(tracked[1..], q);
      [Track(pid, guid)] + tracked[1..]
    else
      var rest := AddOrUpdate(tracked[1..], pid, guid);
      HeadNotInTail(tracked);
      assert TrackedFor(rest, tracked[0].pid).None?;
      [tracked[0]] + rest
  }

  /** The first tracked process appears nowhere else. */
  lemma HeadNotInTail(tracked: seq<Track>)
    requires |tracked| > 0 && UniquePids(tracked)
    ensures TrackedFor(tracked[1..], tracked[0].pid).None?
    ensures UniquePids(tracked[1..])
  {
    forall k | 0 <= k < |tracked[1..]| ensures tracked[1..][k].pid != tracked[0].pid {
      assert tracked[1..][k] == tracked[k + 1];
    }
    forall a, b | 0 <= a < b < |tracked[1..]| ensures tracked[1..][a].pid != tracked[1..][b].pid {
      assert tracked[1..][a] == tracked[a + 1] && tracked[1..][b] == tracked[b + 1];
    }
  }

  /** Some title of `db` matches process `p`. */
  predicate MatchedBy(p: ProcInfo, db: seq<Title>) {
    exists j :: 0 <= j < |db| && Matches(db[j], p.path)
  }

  /** The inner loop: every title matching process `p` is recorded for it,
      the last match winning. */
  function MatchTitles(tracked: seq<Track>, p: ProcInfo, db: seq<Title>): (r: seq<Track>)
    requires UniquePids(tracked)
    ensures UniquePids(r)
    ensures forall q :: q != p.pid ==> TrackedFor(r, q) == TrackedFor(tracked, q)
    ensures MatchedBy(p, db) ==>
              exists j :: 0 <= j < |db| && Matches(db[j], p.path) && TrackedFor(r, p.pid) == Some(db[j].guid)
    ensures !MatchedBy(p, db) ==> r == tracked
    decreases |db|
  {
    if db == [] then tracked
    else
      var last := db[|db| - 1];
      var front := MatchTitles(tracked, p, db[..|db| - 1]);
      assert forall j :: 0 <= j < |db| - 1 ==> db[..|db| - 1][j] == db[j];
      if Matches(last, p.path) then AddOrUpdate(front, p.pid, last.guid)
      else
        assert MatchedBy(p, db) ==> MatchedBy(p, db[..|db| - 1]);
        front
  }

  /** Some running process with id `q` is matched by the title with GUID
      `guid`. */
  predicate MatchedPid(procs: seq<ProcInfo>, db: seq<Title>, q: int, guid: string) {
    exists i, j :: 0 <= i < |procs| && 0 <= j < |db| &&
      procs[i].pid == q && db[j].guid == guid && Matches(db[j], procs[i].path)
  }

  /** The outer loop over the running processes. A process becomes (or stays)
      tracked for a title only if that title matches it, and every matched
      process ends tracked for a title that matches it; tracked processes
      are never dropped here. */
  function MatchAll(tracked: seq<Track>, procs: seq<ProcInfo>, db: seq<Title>): (r: seq<Track>)
    requires UniquePids(tracked)
    ensures UniquePids(r)
    ensures forall q :: TrackedFor(tracked, q).Some? ==> TrackedFor(r, q).Some?
    ensures forall q :: TrackedFor(r, q) != TrackedFor(tracked, q) ==>
              TrackedFor(r, q).Some? && MatchedPid(procs, db, q, TrackedFor(r, q).value)
    ensures forall i :: 0 <= i < |procs| && MatchedBy(procs[i], db) ==>
              TrackedFor(r, procs[i].pid).Some? && MatchedPid(procs, db, procs[i].pid, TrackedFor(r, procs[i].pid).value)
    decreases |procs|
  {
    if procs == [] then tracked
    else
      var front := MatchAll(tracked, procs[..|procs| - 1], db);
      var r := MatchTitles(front, procs[|procs| - 1], db);
      MatchAllStep(tracked, procs, procs[..|procs| - 1], db, front, r);
      r
  }

  /** The inductive step of `MatchAll`: one more process matched. */
  lemma MatchAllStep(tracked: seq<Track>, procs: seq<ProcInfo>, init: seq<ProcInfo>, db: seq<Title>,
                     front: seq<Track>, r: seq<Track>)
    requires |procs| > 0 && init == procs[..|procs| - 1] && UniquePids(front)
    requires forall q :: TrackedFor(tracked, q).Some? ==> TrackedFor(front, q).Some?
    requires forall q :: TrackedFor(front, q) != TrackedFor(tracked, q) ==>
               TrackedFor(front, q).Some? && MatchedPid(init, db, q, TrackedFor(front, q).value)
    requires forall i :: 0 <= i < |init| && MatchedBy(init[i], db) ==>
               TrackedFor(front, init[i].pid).Some? && MatchedPid(init, db, init[i].pid, TrackedFor(front, init[i].pid).value)
    requires r == MatchTitles(front, procs[|procs| - 1], db)
    ensures forall q :: TrackedFor(tracked, q).Some? ==> TrackedFor(r, q).Some?
    ensures forall q :: TrackedFor(r, q) != TrackedFor(tracked, q) ==>
              TrackedFor(r, q).Some? && MatchedPid(procs, db, q, TrackedFor(r, q).value)
    ensures forall i :: 0 <= i < |procs| && MatchedBy(procs[i], db) ==>
              TrackedFor(r, procs[i].pid).Some? && MatchedPid(procs, db, procs[i].pid, TrackedFor(r, procs[i].pid).value)
  {
    var n := |procs| - 1;
    var last := procs[n];
    MatchedPidGrows(procs, init, db);
    forall q | TrackedFor(tracked, q).Some? ensures TrackedFor(r, q).Some? {
      if q == last.pid && MatchedBy(last, db) {
        var j :| 0 <= j < |db| && Matches(db[j], last.path) && TrackedFor(r, last.pid) == Some(db[j].guid);
      }
    }
    forall q | TrackedFor(r, q) != TrackedFor(tracked, q)
      ensures TrackedFor(r, q).Some? && MatchedPid(procs, db, q, TrackedFor(r, q).value)
    {
      if q == last.pid && MatchedBy(last, db) {
        var j :| 0 <= j < |db| && Matches(db[j], last.path) && TrackedFor(r, last.pid) == Some(db[j].guid);
        assert procs[n].pid == q && db[j].guid == TrackedFor(r, q).value && Matches(db[j], procs[n].path);
      } else {
        assert TrackedFor(r, q) == TrackedFor(front, q);
      }
    }
    forall i | 0 <= i < |procs| && MatchedBy(procs[i], db)
      ensures TrackedFor(r, procs[i].pid).Some? && MatchedPid(procs, db, procs[i].pid, TrackedFor(r, procs[i].pid).value)
    {
      var q := procs[i].pid;
      if i == n || (q == last.pid && MatchedBy(last, db)) {
        assert MatchedBy(last, db);
        var j :| 0 <= j < |db| && Matches(db[j], last.path) && TrackedFor(r, last.pid) == Some(db[j].guid);
        assert procs[n].pid == q && db[j].guid == TrackedFor(r, q).value && Matches(db[j], procs[n].path);
      } else {
        assert init[i] == procs[i];
        assert TrackedFor(r, q) == TrackedFor(front, q);
      }
    }
  }

  /** A match among the first processes is a match among all of them. */
  lemma MatchedPidGrows(procs: seq<ProcInfo>, init: seq<ProcInfo>, db: seq<Title>)
    requires |procs| > 0 && init == procs[..|procs| - 1]
    ensures forall q, g :: MatchedPid(init, db, q, g) ==> MatchedPid(procs, db, q, g)
  {
    forall q, g | MatchedPid(init, db, q, g) ensures MatchedPid(procs, db, q, g) {
      var i, j :| 0 <= i < |init| && 0 <= j < |db| &&
        init[i].pid == q && db[j].guid == g && Matches(db[j], init[i].path);
      assert procs[i] == init[i];
    }
  }

  // ---------------------------------------------------------------------------
  // Reaping exited processes
  // ---------------------------------------------------------------------------

  /** Position of the title with GUID `guid`, if any. */
  function IndexOfGuid(db: seq<Title>, guid: string): (r: Option<nat>)
    ensures r.Some? ==> r.value < |db| && db[r.value].guid == guid
    ensures r.None? <==> forall i :: 0 <= i < |db| ==> db[i].guid != guid
  {
    if db == [] then None
    else if db[0].guid == guid then Some(0)
    else
      var r := IndexOfGuid(db[1..], guid);
      assert forall i :: 1 <= i < |db| ==> db[1..][i - 1] == db[i];
      match r
      case None => None
      case Some(i) => Some(i + 1)
  }

  /** The capture an exit triggers: `DockSync` with next status `!docked`,
      capture on and restore off, so the live settings land in the folder of
      the current state `docked`. */
  function ExitCapture(t: Title, docked: bool, now: Time, w: World): (r: Title)
    ensures r.(settings := t.settings, lastCheck := t.lastCheck) == t
    ensures r.lastCheck == now
    ensures |r.settings| == |t.settings|
    ensures forall i :: 0 <= i < |t.settings| ==>
              && SameLocation(r.settings[i], t.settings[i])
              && (!t.settings[i].enabled ==> r.settings[i] == t.settings[i])
              && (t.settings[i].enabled && ReadLive(w, t.settings[i]).None? ==>
                    r.settings[i] == t.settings[i].(enabled := false))
              && (t.settings[i].enabled && ReadLive(w, t.settings[i]).Some? ==>
                    r.settings[i] == t.settings[i].(data := t.settings[i].data[StateFolder(docked) := ReadLive(w, t.settings[i]).value]))
  {
    var s := DockSync(t, !docked, true, false, now, w);
    s.title
  }

  /** Entry `i` after two exit captures is entry `i` after the second alone. */
  lemma ExitCaptureTwiceAt(t: Title, docked: bool, now: Time, later: Time, w: World, i: int)
    requires 0 <= i < |t.settings|
    ensures var once := ExitCapture(t, docked, now, w);
            ExitCapture(once, docked, later, w).settings[i] == ExitCapture(t, docked, later, w).settings[i]
  {
    var s := t.settings[i];
    var once := ExitCapture(t, docked, now, w);
    var o := once.settings[i];
    assert SameLocation(o, s);
    assert ReadLive(w, o) == ReadLive(w, s);
    if !s.enabled {
      assert o == s;
    } else if ReadLive(w, s).None? {
      assert o == s.(enabled := false);
    } else {
      assert o == s.(data := s.data[StateFolder(docked) := ReadLive(w, s).value]);
    }
  }

  /** A second exit capture against the same live world changes only the
      timestamp. */
  lemma ExitCaptureTwice(t: Title, docked: bool, now: Time, later: Time, w: World)
    ensures ExitCapture(ExitCapture(t, docked, now, w), docked, later, w) == ExitCapture(t, docked, later, w)
  {
    var once := ExitCapture(t, docked, now, w);
    var twice := ExitCapture(once, docked, later, w);
    var direct := ExitCapture(t, docked, later, w);
    assert |twice.settings| == |direct.settings|;
    forall i | 0 <= i < |t.settings| ensures twice.settings[i] == direct.settings[i] {
      ExitCaptureTwiceAt(t, docked, now, later, w, i);
    }
    assert twice.settings == direct.settings;
  }

  /** Some exited process is tracked for `guid`. */
  predicate ExitedFor(tracked: seq<Track>, exited: set<int>, guid: string) {
    exists k :: 0 <= k < |tracked| && tracked[k].pid in exited && tracked[k].guid == guid
  }

  datatype Reaped = Reaped(tracked: seq<Track>, titles: seq<Title>)

  /** The second half of a poll: each tracked process that has exited
      triggers an exit capture of its title and leaves the tracked set. */
  function ReapExited(tracked: seq<Track>, exited: set<int>, db: seq<Title>, docked: bool,
                      now: Time, w: World): (r: Reaped)
    requires UniquePids(tracked) && UniqueGuids(db)
    ensures UniquePids(r.tracked) && UniqueGuids(r.titles)
    ensures forall q :: TrackedFor(r.tracked, q) == if q in exited then None else TrackedFor(tracked, q)
    ensures |r.titles| == |db|
    ensures forall i :: 0 <= i < |db| ==>
              if ExitedFor(tracked, exited, db[i].guid) then r.titles[i] == ExitCapture(db[i], docked, now, w)
              else r.titles[i] == db[i]
    decreases |tracked|
  {
    if tracked == [] then Reaped([], db)
    else
      var t0 := tracked[0];
      HeadNotInTail(tracked);
      var db1 := ReapOne(t0, exited, db, docked, now, w);
      var rest := ReapExited(tracked[1..], exited, db1, docked, now, w);
      ReapTitlesStep(tracked, exited, db, db1, rest.titles, docked, now, w);
      ReapTrackedStep(tracked, exited, rest.tracked);
      Reaped(if t0.pid in exited then rest.tracked else [t0] + rest.tracked, rest.titles)
  }

  /** The capture for one tracked process: when it has exited, the title
      with its guid (if any) is captured; every other title stays. */
  function ReapOne(t0: Track, exited: set<int>, db: seq<Title>, docked: bool, now: Time, w: World): (r: seq<Title>)
    requires UniqueGuids(db)
    ensures |r| == |db| && UniqueGuids(r)
    ensures forall i :: 0 <= i < |db| ==>
              r[i] == if t0.pid in exited && t0.guid == db[i].guid then ExitCapture(db[i], docked, now, w) else db[i]
  {
    if t0.pid !in exited then db else
      match IndexOfGuid(db, t0.guid)
      case None => db
      case Some(i) => db[i := ExitCapture(db[i], docked, now, w)]
  }

  /** An exited process is tracked for `guid` exactly when the first tracked
      process is one, or one of the rest is. */
  lemma ExitedForCons(tracked: seq<Track>, exited: set<int>, guid: string)
    requires |tracked| > 0
    ensures ExitedFor(tracked, exited, guid) <==>
              (tracked[0].pid in exited && tracked[0].guid == guid) || ExitedFor(tracked[1..], exited, guid)
  {
    assert forall k :: 1 <= k < |tracked| ==> tracked[1..][k - 1] == tracked[k];
    if ExitedFor(tracked[1..], exited, guid) {
      var k :| 0 <= k < |tracked[1..]| && tracked[1..][k].pid in exited && tracked[1..][k].guid == guid;
      assert tracked[k + 1] == tracked[1..][k];
    }
  }

  /** The titles half of one step of `ReapExited`. */
  lemma ReapTitlesStep(tracked: seq<Track>, exited: set<int>, db: seq<Title>, db1: seq<Title>,
                       titles: seq<Title>, docked: bool, now: Time, w: World)
    requires |tracked| > 0 && UniqueGuids(db)
    requires db1 == ReapOne(tracked[0], exited, db, docked, now, w)
    requires |titles| == |db1|
    requires forall i :: 0 <= i < |db1| ==>
               if ExitedFor(tracked[1..], exited, db1[i].guid) then titles[i] == ExitCapture(db1[i], docked, now, w)
               else titles[i] == db1[i]
    ensures forall i :: 0 <= i < |db| ==>
              if ExitedFor(tracked, exited, db[i].guid) then titles[i] == ExitCapture(db[i], docked, now, w)
              else titles[i] == db[i]
  {
    var t0 := tracked[0];
    forall i | 0 <= i < |db|
      ensures if ExitedFor(tracked, exited, db[i].guid) then titles[i] == ExitCapture(db[i], docked, now, w)
              else titles[i] == db[i]
    {
      ExitedForCons(tracked, exited, db[i].guid);
      if t0.pid in exited && t0.guid == db[i].guid {
        assert db1[i] == ExitCapture(db[i], docked, now, w);
        ExitCaptureTwice(db[i], docked, now, now, w);
      } else {
        assert db1[i] == db[i];
      }
    }
  }

  /** The tracking half of one step of `ReapExited`: the first process is
      dropped when it has exited and kept in front of the reaped rest otherwise. */
  lemma ReapTrackedStep(tracked: seq<Track>, exited: set<int>, rest: seq<Track>)
    requires |tracked| > 0 && UniquePids(tracked)
    requires forall q :: TrackedFor(rest, q) == if q in exited then None else TrackedFor(tracked[1..], q)
    requires UniquePids(rest)
    ensures var r := if tracked[0].pid in exited then rest else [tracked[0]] + rest;
            && UniquePids(r)
            && forall q :: TrackedFor(r, q) == if q in exited then None else TrackedFor(tracked, q)
  {
    var t0 := tracked[0];
    HeadNotInTail(tracked);
    if t0.pid !in exited {
      var r := [t0] + rest;
      assert r[1..] == rest;
      forall q ensures TrackedFor(r, q) == if q in exited then None else TrackedFor(tracked, q) {
      }
      assert TrackedFor(rest, t0.pid).None?;
      forall b | 0 < b < |r| ensures r[b].pid != t0.pid {
        assert r[b] == rest[b - 1];
      }
      forall a, b | 0 < a < b < |r| ensures r[a].pid != r[b].pid {
        assert r[a] == rest[a - 1] && r[b] == rest[b - 1];
      }
    }
  }

  datatype Poll = Poll(tracked: seq<Track>, titles: seq<Title>, world: World)

  /** One iteration of the process monitor: correlate, then reap. The live
      world is only read. */
  function ProcessMonitorStep(tracked: seq<Track>, procs: seq<ProcInfo>, exited: set<int>, db: seq<Title>,
                              docked: bool, now: Time, w: World): (r: Poll)
    requires UniquePids(tracked) && UniqueGuids(db)
    ensures r.world == w
    ensures UniquePids(r.tracked) && UniqueGuids(r.titles)
    ensures forall q :: q in exited ==> TrackedFor(r.tracked, q).None?
    ensures forall i :: 0 <= i < |procs| && procs[i].pid !in exited && MatchedBy(procs[i], db) ==>
              && TrackedFor(r.tracked, procs[i].pid).Some?
              && MatchedPid(procs, db, procs[i].pid, TrackedFor(r.tracked, procs[i].pid).value)
    ensures |r.titles| == |db|
    ensures forall i :: 0 <= i < |db| ==>
              r.titles[i] == db[i] || r.titles[i] == ExitCapture(db[i], docked, now, w)
  {
    var matched := MatchAll(tracked, procs, db);
    var reaped := ReapExited(matched, exited, db, docked, now, w);
    Poll(reaped.tracked, reaped.titles, w)
  }

  /** An exit capture stores into the folder of the current dock state,
      never into the other folder, and leaves the live world untouched. */
  lemma ExitCaptureStoresCurrentFolder(t: Title, docked: bool, now: Time, w: World, i: int)
    requires 0 <= i < |t.settings| && t.settings[i].enabled && ReadLive(w, t.settings[i]).Some?
    ensures var r := ExitCapture(t, docked, now, w);
            && r.settings[i].data[StateFolder(docked)] == ReadLive(w, t.settings[i]).value
            && (StateFolder(!docked) in t.settings[i].data ==>
                  r.settings[i].data[StateFolder(!docked)] == t.settings[i].data[StateFolder(!docked)])
            && DockSync(t, !docked, true, false, now, w).world == w
  {
    FoldersDiffer(docked);
  }

  // ---------------------------------------------------------------------------
  // Title list update
  // ---------------------------------------------------------------------------

  datatype Listing = Listing(titles: seq<Title>, listed: set<string>, world: World)

  /** `UpdateGameItem`: a title with a new GUID is appended (and shown in
      the list) and has its live settings saved into both folders; a known
      title replaces the database entry only when the list shows it. */
  function UpdateGameItem(db: seq<Title>, listed: set<string>, game: Title, now: Time, w: World): (r: Listing)
    requires UniqueGuids(db)
    ensures UniqueGuids(r.titles)
    ensures r.world == w
    ensures IndexOfGuid(db, game.guid).None? ==>
              && |r.titles| == |db| + 1
              && r.titles[..|db|] == db
              && r.titles[|db|].(settings := game.settings, lastCheck := game.lastCheck) == game
              && r.titles[|db|].lastCheck == now
              && |r.titles[|db|].settings| == |game.settings|
              && (forall j :: 0 <= j < |game.settings| && !game.settings[j].enabled ==>
                    r.titles[|db|].settings[j] == game.settings[j])
              && r.listed == listed + {game.guid}
    ensures IndexOfGuid(db, game.guid).Some? ==> r.listed == listed
    ensures IndexOfGuid(db, game.guid).Some? && game.guid in listed ==>
              r.titles == db[IndexOfGuid(db, game.guid).value := game]
    ensures IndexOfGuid(db, game.guid).Some? && game.guid !in listed ==> r.titles == db
  {
    match IndexOfGuid(db, game.guid)
    case None =>
      var undocked := DockSync(game, true, true, false, now, w);
      var docked := DockSync(undocked.title, false, true, false, now, undocked.world);
      Listing(db + [docked.title], listed + {game.guid}, docked.world)
    case Some(i) =>
      if game.guid in listed then Listing(db[i := game], listed, w)
      else Listing(db, listed, w)
  }

  /** A new title leaves `UpdateGameItem` with both folders holding the live
      bytes of each enabled entry whose artifact exists. */
  lemma NewTitleCapturesBothFolders(db: seq<Title>, listed: set<string>, game: Title, now: Time, w: World, j: int)
    requires UniqueGuids(db) && IndexOfGuid(db, game.guid).None?
    requires 0 <= j < |game.settings| && game.settings[j].enabled && ReadLive(w, game.settings[j]).Some?
    ensures var r := UpdateGameItem(db, listed, game, now, w);
            var live := ReadLive(w, game.settings[j]).value;
            r.titles[|db|].settings[j] ==
              game.settings[j].(data := game.settings[j].data[StateFolder(false) := live][StateFolder(true) := live])
  {
    CapturesBothFolders(game, now, w, j);
    NewTitleIsCaptured(db, listed, game, now, w);
  }

  /** A new title is appended as the two capture-only syncs left it. */
  lemma NewTitleIsCaptured(db: seq<Title>, listed: set<string>, game: Title, now: Time, w: World)
    requires UniqueGuids(db) && IndexOfGuid(db, game.guid).None?
    ensures var u := DockSync(game, true, true, false, now, w);
            var d := DockSync(u.title, false, true, false, now, u.world);
            UpdateGameItem(db, listed, game, now, w).titles[|db|] == d.title
  {
  }

  /** The two capture-only syncs `UpdateGameItem` runs on a new title store
      entry `j`'s live bytes in both folders. */
  lemma CapturesBothFolders(game: Title, now: Time, w: World, j: int)
    requires 0 <= j < |game.settings| && game.settings[j].enabled && ReadLive(w, game.settings[j]).Some?
    ensures var u := DockSync(game, true, true, false, now, w);
            var d := DockSync(u.title, false, true, false, now, u.world);
            var live := ReadLive(w, game.settings[j]).value;
            d.title.settings[j] ==
              game.settings[j].(data := game.settings[j].data[StateFolder(false) := live][StateFolder(true) := live])
  {
    var live := ReadLive(w, game.settings[j]).value;
    var u := DockSync(game, true, true, false, now, w);
    CaptureEntry(game, true, now, w, j);
    assert ReadLive(w, u.title.settings[j]) == Some(live);
    CaptureEntry(u.title, false, now, w, j);
  }

  /** A capture-only dock sync leaves the world alone and stores entry `j`'s
      live bytes in the folder being left. */
  lemma CaptureEntry(t: Title, next: bool, now: Time, w: World, j: int)
    requires 0 <= j < |t.settings| && t.settings[j].enabled && ReadLive(w, t.settings[j]).Some?
    ensures var r := DockSync(t, next, true, false, now, w);
            && r.world == w
            && r.title.settings[j] == t.settings[j].(data := t.settings[j].data[CaptureFolder(next) := ReadLive(w, t.settings[j]).value])
  {
  }
}

=== FILE: reconcile.dfy ===
/**
  The startup reconciliation pass (`SanityCheck`). For every title without an
  error it walks the enabled entries and compares three things: the title's
  fingerprint, the current state key, and the stored snapshot against the
  live bytes. Each entry is then disabled, synced automatically, escalated
  as a conflict to a yes/no decision, or left alone. A missing snapshot for
  the current key ends the whole pass at once.
*/
module Reconcile {
  import opened Wrappers
  import opened Model
  import opened SyncEngine

  /** What the pass decides for one enabled entry. */
  datatype Verdict =
    | Disable   // live artifact missing
    | Abort     // nothing stored for the current key: the pass returns
    | AutoSync  // fingerprint differs from the current key
    | Conflict  // fingerprint matches, but stored and live bytes differ
    | Clean     // fingerprint matches and the bytes agree

  /** Classifies one entry from its live bytes, its store, the current key
      and the title's fingerprint. */
  function Classify(live: Option<Bytes>, data: Store, key: string, crc: string): (r: Verdict)
    ensures r == Disable <==> live.None?
    ensures r == Abort <==> live.Some? && key !in data
    ensures r == AutoSync <==> live.Some? && key in data && key != crc
    ensures r == Conflict <==> live.Some? && key in data && key == crc && live.value != data[key]
    ensures r == Clean <==> live.Some? && key in data && key == crc && live.value == data[key]
  {
    if live.None? then Disable
    else if key !in data then Abort
    else if key != crc then AutoSync
    else if !Equality(live, Some(data[key])) then Conflict
    else Clean
  }

  /** The verdict of entry `s` of title `t` against the current key. */
  function VerdictOf(t: Title, s: Setting, key: string, w: World): Verdict {
    Classify(ReadLive(w, s), s.data, key, t.crc)
  }

  /** Acts on one entry's verdict. An autosync captures into the fingerprint
      key and restores the current key. A conflict asks `decide`: "yes" keeps
      the stored snapshot (restore only), "no" keeps the live bytes (capture
      only), both under the current key. */
  function ReconcileSetting(t: Title, s: Setting, key: string, decide: (Title, Setting) -> bool,
                            w: World): (r: Step)
    ensures VerdictOf(t, s, key, w) == Disable ==> r == Step(s.(enabled := false), w)
    ensures VerdictOf(t, s, key, w) in {Abort, Clean} ==> r == Step(s, w)
    ensures VerdictOf(t, s, key, w) == AutoSync ==>
              && r.setting == s.(data := s.data[t.crc := ReadLive(w, s).value])
              && ReadLive(r.world, s) == Some(s.data[key])
    ensures VerdictOf(t, s, key, w) == Conflict && decide(t, s) ==>
              && r.setting == s
              && ReadLive(r.world, s) == Some(s.data[key])
    ensures VerdictOf(t, s, key, w) == Conflict && !decide(t, s) ==>
              && r.setting == s.(data := s.data[key := ReadLive(w, s).value])
              && r.world == w
    ensures !r.setting.enabled <==> !s.enabled || ReadLive(w, s).None?
    ensures SameLocation(r.setting, s)
    ensures StoresAgreeOff(r.setting.data, s.data, {key, t.crc})
    ensures forall o :: !SameLocation(o, s) ==> ReadLive(r.world, o) == ReadLive(w, o)
    ensures SameExistence(r.world, w)
  {
    match VerdictOf(t, s, key, w)
    case Disable => Step(s.(enabled := false), w)
    case Abort => Step(s, w)
    case AutoSync => UpdateSetting(s, t.lastCheck, key, t.crc, true, true, w)
    case Conflict =>
      var keepStored := decide(t, s);
      UpdateSetting(s, t.lastCheck, key, key, !keepStored, keepStored, w)
    case Clean => Step(s, w)
  }

  /** Index shift for results of a recursive call on a tail. */
  function Shift(i: Option<nat>): Option<nat> {
    match i
    case None => None
    case Some(n) => Some(n + 1)
  }

  /** An enabled entry with nothing stored for `key`. */
  predicate Lacks(s: Setting, key: string) {
    s.enabled && key !in s.data
  }

  /** An entry on which the pass returns: it lacks `key` and its artifact
      exists. */
  predicate Stops(s: Setting, key: string, w: World) {
    Lacks(s, key) && ReadLive(w, s).Some?
  }

  /** Position `i` comes before the stop point `stop`, or there is none. */
  predicate Before(i: nat, stop: Option<nat>) {
    stop.None? || i < stop.value
  }

  datatype Reconciled = Reconciled(settings: seq<Setting>, world: World, abortedAt: Option<nat>)

  /** The per-entry loop of one title; `abortedAt` is the entry at which the
      pass returned, if it did. Every lacking entry the loop got past had a
      missing artifact and was disabled. */
  function ReconcileSettings(t: Title, ss: seq<Setting>, key: string, decide: (Title, Setting) -> bool,
                             w: World): (r: Reconciled)
    ensures Framed(r.settings, ss, {key, t.crc})
    ensures forall i :: 0 <= i < |ss| && Lacks(ss[i], key) && Before(i, r.abortedAt) ==> !r.settings[i].enabled
    ensures r.abortedAt.Some? ==>
              var i := r.abortedAt.value;
              && i < |ss|
              && Lacks(ss[i], key)
              && r.settings[i..] == ss[i..]
    ensures forall o :: Untargeted(o, ss) ==> ReadLive(r.world, o) == ReadLive(w, o)
    ensures SameExistence(r.world, w)
  {
    if ss == [] then Reconciled([], w, None)
    else if ss[0].enabled && VerdictOf(t, ss[0], key, w) == Abort then
      Reconciled(ss, w, Some(0))
    else
      var head := ReconcileEntry(t, ss[0], key, decide, w);
      var rest := ReconcileSettings(t, ss[1..], key, decide, head.world);
      FramedCons(head.setting, ss, rest.settings, {key, t.crc});
      PrependStops(ss, key, w, head.setting, rest);
      UntargetedCons(ss);
      Reconciled([head.setting] + rest.settings, rest.world, Shift(rest.abortedAt))
  }

  /** One entry of the loop: enabled entries are reconciled, disabled ones
      are skipped untouched. */
  function ReconcileEntry(t: Title, s: Setting, key: string, decide: (Title, Setting) -> bool,
                          w: World): (r: Step)
    ensures !s.enabled ==> r == Step(s, w)
    ensures SameLocation(r.setting, s) && (r.setting.enabled ==> s.enabled)
    ensures !r.setting.enabled <==> !s.enabled || ReadLive(w, s).None?
    ensures StoresAgreeOff(r.setting.data, s.data, {key, t.crc})
    ensures forall o :: !SameLocation(o, s) ==> ReadLive(r.world, o) == ReadLive(w, o)
    ensures SameExistence(r.world, w)
  {
    if s.enabled then ReconcileSetting(t, s, key, decide, w) else Step(s, w)
  }

  /** Prepending the first entry's step to the loop over the rest keeps the
      stop point and the entries it got past. */
  lemma PrependStops(ss: seq<Setting>, key: string, w: World, h: Setting, rest: Reconciled)
    requires |ss| > 0 && !Stops(ss[0], key, w) && |rest.settings| == |ss| - 1
    requires !h.enabled <==> !ss[0].enabled || ReadLive(w, ss[0]).None?
    requires forall i :: 0 <= i < |ss| - 1 && Lacks(ss[1..][i], key) && Before(i, rest.abortedAt) ==>
               !rest.settings[i].enabled
    requires rest.abortedAt.Some? ==>
               var i := rest.abortedAt.value;
               && i < |ss| - 1
               && Lacks(ss[1..][i], key)
               && rest.settings[i..] == ss[1..][i..]
    ensures var settings := [h] + rest.settings;
            var stop := Shift(rest.abortedAt);
            && (forall i :: 0 <= i < |ss| && Lacks(ss[i], key) && Before(i, stop) ==> !settings[i].enabled)
            && (stop.Some? ==>
                  var i := stop.value;
                  && i < |ss|
                  && Lacks(ss[i], key)
                  && settings[i..] == ss[i..])
  {
    var settings := [h] + rest.settings;
    forall i | 1 <= i < |ss| ensures settings[i] == rest.settings[i - 1] && ss[1..][i - 1] == ss[i] {
    }
    if rest.abortedAt.Some? {
      var i := rest.abortedAt.value;
      assert settings[i + 1..] == rest.settings[i..];
      assert ss[1..][i..] == ss[i + 1..];
    }
  }

  /** Reference for where the loop returns: the first entry of `ss` that
      `Stops` in the world `w`, if any. */
  function FirstStop(ss: seq<Setting>, key: string, w: World): (r: Option<nat>)
    ensures r.None? <==> forall i :: 0 <= i < |ss| ==> !Stops(ss[i], key, w)
    ensures r.Some? ==>
              && r.value < |ss|
              && Stops(ss[r.value], key, w)
              && forall j :: 0 <= j < r.value ==> !Stops(ss[j], key, w)
  {
    if ss == [] then None
    else if Stops(ss[0], key, w) then Some(0)
    else
      assert forall i :: 1 <= i < |ss| ==> ss[1..][i - 1] == ss[i];
      Shift(FirstStop(ss[1..], key, w))
  }

  /** `FirstStop` only asks which artifacts exist. */
  lemma {:induction false} FirstStopFrame(ss: seq<Setting>, key: string, w1: World, w2: World)
    requires SameExistence(w1, w2)
    ensures FirstStop(ss, key, w1) == FirstStop(ss, key, w2)
  {
    if ss != [] {
      assert Stops(ss[0], key, w1) == Stops(ss[0], key, w2);
      FirstStopFrame(ss[1..], key, w1, w2);
    }
  }

  /** The step on one entry only depends on that entry's own artifact. */
  lemma ReconcileSettingLocal(t: Title, s: Setting, key: string, decide: (Title, Setting) -> bool,
                              w1: World, w2: World)
    requires ReadLive(w1, s) == ReadLive(w2, s)
    ensures ReconcileSetting(t, s, key, decide, w1).setting == ReconcileSetting(t, s, key, decide, w2).setting
    ensures ReadLive(ReconcileSetting(t, s, key, decide, w1).world, s)
            == ReadLive(ReconcileSetting(t, s, key, decide, w2).world, s)
  {
  }

  /** The loop returns exactly at the first entry that lacks `key` while its
      artifact exists. No step creates or deletes an artifact, so this holds
      even when entries share a location. */
  lemma {:induction false} ReconcileSettingsStopsFirst(t: Title, ss: seq<Setting>, key: string,
                                                       decide: (Title, Setting) -> bool, w: World)
    ensures ReconcileSettings(t, ss, key, decide, w).abortedAt == FirstStop(ss, key, w)
  {
    if ss != [] && !(ss[0].enabled && VerdictOf(t, ss[0], key, w) == Abort) {
      var head := ReconcileEntry(t, ss[0], key, decide, w);
      FirstStopFrame(ss[1..], key, head.world, w);
      ReconcileSettingsStopsFirst(t, ss[1..], key, decide, head.world);
    }
  }

  /** Over entries at distinct locations, every enabled entry before the stop
      point ends as `ReconcileSetting` alone would leave it, in its setting and
      in its live artifact. */
  lemma {:induction false} ReconcileSettingsFollowsVerdicts(t: Title, ss: seq<Setting>, key: string,
                                                            decide: (Title, Setting) -> bool, w: World, i: int)
    requires DistinctLocations(ss)
    requires 0 <= i < |ss| && ss[i].enabled
    requires Before(i, ReconcileSettings(t, ss, key, decide, w).abortedAt)
    ensures var r := ReconcileSettings(t, ss, key, decide, w);
            var e := ReconcileSetting(t, ss[i], key, decide, w);
            r.settings[i] == e.setting && ReadLive(r.world, ss[i]) == ReadLive(e.world, ss[i])
  {
    if ss[0].enabled && VerdictOf(t, ss[0], key, w) == Abort {
      assert false;
      return;
    }
    var head := ReconcileEntry(t, ss[0], key, decide, w);
    var rest := ReconcileSettings(t, ss[1..], key, decide, head.world);
    FirstUntargetedByRest(ss);
    assert ReconcileSettings(t, ss, key, decide, w)
        == Reconciled([head.setting] + rest.settings, rest.world, Shift(rest.abortedAt));
    if i > 0 {
      assert ss[1..][i - 1] == ss[i];
      ReconcileSettingsFollowsVerdicts(t, ss[1..], key, decide, head.world, i - 1);
      ReconcileSettingLocal(t, ss[i], key, decide, head.world, w);
    }
  }

  datatype TitleReconciled = TitleReconciled(title: Title, world: World, aborted: bool)

  /** One title of the pass: skipped when it carries an error; otherwise its
      entries are reconciled and, unless the pass returned midway, its
      fingerprint becomes the current key. The pass returns in this title
      exactly when one of its lacking entries is still enabled afterwards. */
  function ReconcileTitle(t: Title, key: string, decide: (Title, Setting) -> bool, w: World): (r: TitleReconciled)
    ensures t.errorCode != NoError ==> r == TitleReconciled(t, w, false)
    ensures r.title.(settings := t.settings, crc := t.crc) == t
    ensures Framed(r.title.settings, t.settings, {key, t.crc})
    ensures !r.aborted && t.errorCode == NoError ==> r.title.crc == key
    ensures r.aborted ==> r.title.crc == t.crc
    ensures t.errorCode == NoError ==>
              (r.aborted <==> exists i :: 0 <= i < |t.settings| && Lacks(t.settings[i], key) && r.title.settings[i].enabled)
    ensures forall o :: Untargeted(o, t.settings) ==> ReadLive(r.world, o) == ReadLive(w, o)
    ensures SameExistence(r.world, w)
  {
    if t.errorCode != NoError then TitleReconciled(t, w, false)
    else
      var rs := ReconcileSettings(t, t.settings, key, decide, w);
      if rs.abortedAt.Some? then
        assert rs.settings[rs.abortedAt.value] == t.settings[rs.abortedAt.value];
        TitleReconciled(t.(settings := rs.settings), rs.world, true)
      else
        TitleReconciled(t.(settings := rs.settings, crc := key), rs.world, false)
  }

  /** The title-level reference: the pass returns in `t` when it has no error
      and one of its entries `Stops`. */
  predicate TitleStops(t: Title, key: string, w: World) {
    t.errorCode == NoError && FirstStop(t.settings, key, w).Some?
  }

  /** The pass returns in a title exactly when `TitleStops`. */
  lemma ReconcileTitleStopsIff(t: Title, key: string, decide: (Title, Setting) -> bool, w: World)
    ensures ReconcileTitle(t, key, decide, w).aborted <==> TitleStops(t, key, w)
  {
    if t.errorCode == NoError {
      ReconcileSettingsStopsFirst(t, t.settings, key, decide, w);
    }
  }

  datatype Pass = Pass(titles: seq<Title>, world: World, abortedAt: Option<nat>)

  /** What the pass leaves of a title: only entries and fingerprint change,
      within the frame of the two keys it uses, and a title with an error is
      untouched. */
  predicate Visited(after: Title, before: Title, key: string) {
    && after.(settings := before.settings, crc := before.crc) == before
    && Framed(after.settings, before.settings, {key, before.crc})
    && (before.errorCode != NoError ==> after == before)
  }

  /** A title the pass got past: if it has no error, its fingerprint is the
      current key and every entry that lacked `key` was disabled. */
  predicate Completed(after: Title, before: Title, key: string) {
    before.errorCode == NoError ==>
      && after.crc == key
      && forall k :: 0 <= k < |before.settings| && k < |after.settings| && Lacks(before.settings[k], key) ==>
           !after.settings[k].enabled
  }

  /** `SanityCheck` over the title database, in enumeration order, with
      `key` the current state's key. `abortedAt` is the title at which the
      pass returned early, if it did. */
  function SanityCheck(db: seq<Title>, key: string, decide: (Title, Setting) -> bool, w: World): (r: Pass)
    ensures |r.titles| == |db|
    ensures forall i :: 0 <= i < |db| ==> Visited(r.titles[i], db[i], key)
    ensures forall i :: 0 <= i < |db| && Before(i, r.abortedAt) ==> Completed(r.titles[i], db[i], key)
    ensures r.abortedAt.Some? ==> StoppedAt(db, key, r.titles, r.abortedAt.value)
    ensures forall o :: UntargetedByDb(o, db) ==> ReadLive(r.world, o) == ReadLive(w, o)
  {
    if db == [] then Pass([], w, None)
    else
      var head := ReconcileTitle(db[0], key, decide, w);
      UntargetedByDbCons(db);
      if head.aborted then
        PrependAborted(head.title, db, key);
        Pass([head.title] + db[1..], head.world, Some(0))
      else
        var rest := SanityCheck(db[1..], key, decide, head.world);
        PrependCompleted(head.title, db, rest.titles, rest.abortedAt, key);
        PrependStopped(head.title, db, rest.titles, key, rest.abortedAt);
        Pass([head.title] + rest.titles, rest.world, Shift(rest.abortedAt))
  }

  /** The pass returned early at title `i`: title `i` has no error, keeps its
      fingerprint and still has an enabled entry with nothing stored for
      `key`, and every later title is untouched. */
  predicate StoppedAt(db: seq<Title>, key: string, titles: seq<Title>, i: nat) {
    && i < |db| && |titles| == |db|
    && db[i].errorCode == NoError
    && titles[i].crc == db[i].crc
    && titles[i + 1..] == db[i + 1..]
    && exists k :: 0 <= k < |db[i].settings| && k < |titles[i].settings|
                   && Lacks(db[i].settings[k], key) && titles[i].settings[k].enabled
  }

  /** A title the pass returned in, followed by the untouched rest. */
  lemma PrependAborted(h: Title, db: seq<Title>, key: string)
    requires |db| > 0 && Visited(h, db[0], key)
    requires db[0].errorCode == NoError && h.crc == db[0].crc
    requires exists k :: 0 <= k < |db[0].settings| && Lacks(db[0].settings[k], key) && h.settings[k].enabled
    ensures forall i :: 0 <= i < |db| ==> Visited(([h] + db[1..])[i], db[i], key)
    ensures StoppedAt(db, key, [h] + db[1..], 0)
  {
    var titles := [h] + db[1..];
    assert titles[1..] == db[1..];
    forall i | 1 <= i < |db| ensures Visited(titles[i], db[i], key) {
      assert titles[i] == db[i];
    }
  }

  /** A completed title followed by the rest of the pass: every title keeps
      its frame, and the titles the pass got past are completed. */
  lemma PrependCompleted(h: Title, db: seq<Title>, rest: seq<Title>, stop: Option<nat>, key: string)
    requires |db| > 0 && |rest| == |db| - 1
    requires Visited(h, db[0], key) && Completed(h, db[0], key)
    requires forall i :: 0 <= i < |rest| ==> Visited(rest[i], db[1..][i], key)
    requires forall i :: 0 <= i < |rest| && Before(i, stop) ==> Completed(rest[i], db[1..][i], key)
    ensures forall i :: 0 <= i < |db| ==> Visited(([h] + rest)[i], db[i], key)
    ensures forall i :: 0 <= i < |db| && Before(i, Shift(stop)) ==> Completed(([h] + rest)[i], db[i], key)
  {
    forall i | 1 <= i < |db| ensures ([h] + rest)[i] == rest[i - 1] && db[1..][i - 1] == db[i] {
    }
  }

  /** A completed title followed by a pass that stopped at `i` makes a pass
      that stopped at `i + 1`. */
  lemma PrependStopped(h: Title, db: seq<Title>, rest: seq<Title>, key: string, stop: Option<nat>)
    requires |db| > 0 && |rest| == |db| - 1
    requires stop.Some? ==> StoppedAt(db[1..], key, rest, stop.value)
    ensures Shift(stop).Some? ==> StoppedAt(db, key, [h] + rest, Shift(stop).value)
  {
    if stop.Some? {
      StoppedShift(h, db, rest, key, stop.value);
    }
  }

  lemma StoppedShift(h: Title, db: seq<Title>, rest: seq<Title>, key: string, i: nat)
    requires |db| > 0 && |rest| == |db| - 1
    requires StoppedAt(db[1..], key, rest, i)
    ensures StoppedAt(db, key, [h] + rest, i + 1)
  {
    var titles := [h] + rest;
    assert titles[i + 1] == rest[i] && db[1..][i] == db[i + 1];
    assert titles[i + 2..] == rest[i + 1..];
    assert db[1..][i + 1..] == db[i + 2..];
    var k :| 0 <= k < |db[1..][i].settings| && k < |rest[i].settings|
             && Lacks(db[1..][i].settings[k], key) && rest[i].settings[k].enabled;
    assert 0 <= k < |db[i + 1].settings| && k < |titles[i + 1].settings|
           && Lacks(db[i + 1].settings[k], key) && titles[i + 1].settings[k].enabled;
  }

  /** Reference for where the pass returns: the first title that
      `TitleStops` in the world `w`, if any. */
  function FirstStoppingTitle(db: seq<Title>, key: string, w: World): (r: Option<nat>)
    ensures r.None? <==> forall i :: 0 <= i < |db| ==> !TitleStops(db[i], key, w)
    ensures r.Some? ==>
              && r.value < |db|
              && TitleStops(db[r.value], key, w)
              && forall j :: 0 <= j < r.value ==> !TitleStops(db[j], key, w)
  {
    if db == [] then None
    else if TitleStops(db[0], key, w) then Some(0)
    else
      assert forall i :: 1 <= i < |db| ==> db[1..][i - 1] == db[i];
      Shift(FirstStoppingTitle(db[1..], key, w))
  }

  /** `FirstStoppingTitle` only asks which artifacts exist. */
  lemma {:induction false} FirstStoppingTitleFrame(db: seq<Title>, key: string, w1: World, w2: World)
    requires SameExistence(w1, w2)
    ensures FirstStoppingTitle(db, key, w1) == FirstStoppingTitle(db, key, w2)
  {
    if db != [] {
      FirstStopFrame(db[0].settings, key, w1, w2);
      assert forall i :: 1 <= i < |db| ==> db[1..][i - 1] == db[i];
      FirstStoppingTitleFrame(db[1..], key, w1, w2);
    }
  }

  /** The pass returns exactly at the first title that `TitleStops`: the
      first error-free title holding an enabled, live entry with no snapshot
      for the current key. This holds for every database, titles sharing a
      file included, since no step creates or deletes an artifact. */
  lemma {:induction false} SanityCheckStopsFirst(db: seq<Title>, key: string, decide: (Title, Setting) -> bool,
                                                 w: World)
    ensures SanityCheck(db, key, decide, w).abortedAt == FirstStoppingTitle(db, key, w)
  {
    if db != [] {
      var head := ReconcileTitle(db[0], key, decide, w);
      ReconcileTitleStopsIff(db[0], key, decide, w);
      if !head.aborted {
        FirstStoppingTitleFrame(db[1..], key, head.world, w);
        SanityCheckStopsFirst(db[1..], key, decide, head.world);
      }
    }
  }

  /** The pass creates and deletes no file or registry key. */
  lemma {:induction false} SanityCheckKeepsArtifacts(db: seq<Title>, key: string, decide: (Title, Setting) -> bool,
                                                     w: World)
    ensures SameExistence(SanityCheck(db, key, decide, w).world, w)
  {
    if db != [] {
      var head := ReconcileTitle(db[0], key, decide, w);
      if !head.aborted {
        SanityCheckKeepsArtifacts(db[1..], key, decide, head.world);
      }
    }
  }

  /** The pass runs to the end whenever every enabled entry of every
      error-free title has a snapshot for the current key. */
  lemma CompletesWhenEverythingStored(db: seq<Title>, key: string, decide: (Title, Setting) -> bool, w: World)
    requires forall i, j ::
               (0 <= i < |db| && db[i].errorCode == NoError && 0 <= j < |db[i].settings| && db[i].settings[j].enabled)
               ==> key in db[i].settings[j].data
    ensures SanityCheck(db, key, decide, w).abortedAt.None?
    ensures forall i :: 0 <= i < |db| && db[i].errorCode == NoError ==>
              SanityCheck(db, key, decide, w).titles[i].crc == key
  {
  }

  // ---------------------------------------------------------------------------
  // The existence test as the source writes it
  // ---------------------------------------------------------------------------

  /** The per-entry step as written: `File.Exists` is asked about the entry's
      location before its kind is looked at. For a file entry this is the
      kind-aware step; a registry entry is disabled unless a file happens to
      exist at its key path, whatever its key holds. */
  function ReconcileSettingAsWritten(t: Title, s: Setting, key: string, decide: (Title, Setting) -> bool,
                                     w: World): (r: Step)
    ensures s.kind == File ==> r == ReconcileSetting(t, s, key, decide, w)
    ensures s.kind == Registry && s.uri !in w.files ==> !r.setting.enabled && r.world == w
    ensures s.kind == Registry && s.uri in w.files ==> r == ReconcileSetting(t, s, key, decide, w)
  {
    if s.uri !in w.files then Step(s.(enabled := false), w)
    else ReconcileSetting(t, s, key, decide, w)
  }

  /** A registry entry whose key exports fine and agrees with its snapshot is
      disabled by the as-written test, and kept enabled (verdict `Clean`) by
      the kind-aware one. */
  lemma RegistryEntryDisabledAsWritten()
    ensures var s := Setting(Registry, "HKEY_CURRENT_USER\\Software\\Game", true, map["docked" := [1 as bv8]]);
            var w := World(map[], map[s.uri := [1 as bv8]]);
            var t := Title("guid", "Game", "C:\\Game", "game.exe", NoError, 0, "docked", [s]);
            var yes := (_: Title, _: Setting) => true;
            && ReadLive(w, s) == Some([1 as bv8])
            && !ReconcileSettingAsWritten(t, s, "docked", yes, w).setting.enabled
            && VerdictOf(t, s, "docked", w) == Clean
            && ReconcileSetting(t, s, "docked", yes, w) == Step(s, w)
  {
  }
}

=== FILE: sync_engine.dfy ===
/**
  The synchronisation engine (DatabaseManager): byte comparison, the
  capture/restore step for one settings entry, and the title-wide and
  database-wide syncs built from it.

  Capture copies the live artifact into the entry's store under the "game"
  key; restore writes the store's snapshot under the "dest" key back onto the
  live artifact. The two are gated independently.
*/
module SyncEngine {
  import opened Wrappers
  import opened Model

  // ---------------------------------------------------------------------------
  // Byte comparison
  // ---------------------------------------------------------------------------

  /** Byte-by-byte comparison of `x` and `y` from index `i` on. */
  function SameFrom(x: Bytes, y: Bytes, i: nat): (r: bool)
    requires |x| == |y| && i <= |x|
    ensures r <==> x[i..] == y[i..]
    decreases |x| - i
  {
    if i == |x| then true
    else
      assert x[i..] == [x[i]] + x[i + 1..];
      assert y[i..] == [y[i]] + y[i + 1..];
      x[i] == y[i] && SameFrom(x, y, i + 1)
  }

  /** The byte comparator: a missing array never equals anything, arrays of
      different lengths differ, otherwise every byte must match. */
  function Equality(a: Option<Bytes>, b: Option<Bytes>): (r: bool)
    ensures r <==> a.Some? && b.Some? && a.value == b.value
    ensures a.None? || b.None? ==> !r
    ensures a.Some? && b.Some? && |a.value| != |b.value| ==> !r
  {
    if a.None? || b.None? then false
    else if |a.value| != |b.value| then false
    else SameFrom(a.value, b.value, 0)
  }

  /** The comparator is reflexive on present arrays and symmetric. */
  lemma EqualityReflexiveSymmetric(a: Option<Bytes>, b: Option<Bytes>)
    ensures a.Some? ==> Equality(a, a)
    ensures Equality(a, b) == Equality(b, a)
  {
  }

  // ---------------------------------------------------------------------------
  // One settings entry
  // ---------------------------------------------------------------------------

  datatype Step = Step(setting: Setting, world: World)

  /** Capture-then-restore for one entry (`UpdateFileAndRegistry`).
      A missing live artifact disables the entry and changes nothing else.
      Otherwise, when `updateDB`, the live bytes go into `data[gameKey]`;
      then, when `updateFile` and `data[dest]` exists, that snapshot is
      written back onto the live artifact (a file's last-write time becomes
      the title's `lastCheck`). */
  function UpdateSetting(s: Setting, lastCheck: Time, dest: string, gameKey: string,
                         updateDB: bool, updateFile: bool, w: World): (r: Step)
    ensures ReadLive(w, s).None? ==> r == Step(s.(enabled := false), w)
    ensures ReadLive(w, s).Some? ==> r.setting == s.(data := r.setting.data)
    ensures ReadLive(w, s).Some? && updateDB ==>
              r.setting.data == s.data[gameKey := ReadLive(w, s).value]
    ensures !updateDB ==> r.setting.data == s.data
    ensures !(updateFile && dest in r.setting.data) ==> r.world == w
    ensures ReadLive(w, s).Some? && updateFile && dest in r.setting.data ==>
              && ReadLive(r.world, s) == Some(r.setting.data[dest])
              && (s.kind == File ==> r.world.files[s.uri].lastWrite == lastCheck)
    ensures forall o :: !SameLocation(o, s) ==> ReadLive(r.world, o) == ReadLive(w, o)
    ensures SameExistence(r.world, w)
  {
    match ReadLive(w, s)
    case None => Step(s.(enabled := false), w)
    case Some(live) =>
      var captured := if updateDB then s.(data := s.data[gameKey := live]) else s;
      if updateFile && dest in captured.data then
        Step(captured, WriteLive(w, s, captured.data[dest], lastCheck))
      else
        Step(captured, w)
  }

  /** Capture into key `k` followed by a separate restore from `k` puts the
      live bytes back exactly as they were, and leaves them stored under `k`. */
  lemma CaptureThenRestoreRoundTrip(s: Setting, lastCheck: Time, k: string, w: World)
    requires ReadLive(w, s).Some?
    ensures var c := UpdateSetting(s, lastCheck, k, k, true, false, w);
            var r := UpdateSetting(c.setting, lastCheck, k, k, false, true, c.world);
            && ReadLive(r.world, s) == ReadLive(w, s)
            && r.setting.data == s.data[k := ReadLive(w, s).value]
            && r.setting.enabled == s.enabled
  {
    var c := UpdateSetting(s, lastCheck, k, k, true, false, w);
    assert SameLocation(c.setting, s);
  }

  // ---------------------------------------------------------------------------
  // One title
  // ---------------------------------------------------------------------------

  datatype Synced = Synced(settings: seq<Setting>, world: World)

  /** `o` addresses none of the artifacts of `ss`. */
  predicate Untargeted(o: Setting, ss: seq<Setting>) {
    forall i :: 0 <= i < |ss| ==> !SameLocation(o, ss[i])
  }

  /** One entry of a title-wide sync: enabled entries run `UpdateSetting`,
      disabled ones are skipped untouched. */
  function SyncEntry(s: Setting, lastCheck: Time, dest: string, gameKey: string,
                     updateDB: bool, updateFile: bool, w: World): (r: Step)
    ensures !s.enabled ==> r == Step(s, w)
    ensures SameLocation(r.setting, s) && (r.setting.enabled ==> s.enabled)
    ensures StoresAgreeOff(r.setting.data, s.data, {gameKey})
    ensures !updateDB ==> r.setting.data == s.data
    ensures !updateFile ==> r.world == w
    ensures !updateFile && s.enabled ==>
              && (ReadLive(w, s).None? ==> r.setting == s.(enabled := false))
              && (ReadLive(w, s).Some? && updateDB ==>
                    r.setting == s.(data := s.data[gameKey := ReadLive(w, s).value]))
    ensures forall o :: !SameLocation(o, s) ==> ReadLive(r.world, o) == ReadLive(w, o)
  {
    if s.enabled then UpdateSetting(s, lastCheck, dest, gameKey, updateDB, updateFile, w)
    else Step(s, w)
  }

  /** `after` differs from `before` only as a sync may change it: the same
      number of entries, none moved or re-enabled, disabled entries untouched,
      and stores changed only under `keys`. */
  predicate Framed(after: seq<Setting>, before: seq<Setting>, keys: set<string>) {
    && |after| == |before|
    && forall j :: 0 <= j < |before| ==>
         && SameLocation(after[j], before[j])
         && (after[j].enabled ==> before[j].enabled)
         && (!before[j].enabled ==> after[j] == before[j])
         && StoresAgreeOff(after[j].data, before[j].data, keys)
  }

  /** `o` addresses none of the artifacts of any title of `db`. */
  predicate UntargetedByDb(o: Setting, db: seq<Title>) {
    forall i :: 0 <= i < |db| ==> Untargeted(o, db[i].settings)
  }

  /** What the first title and the rest leave untouched, the whole database
      leaves untouched. */
  lemma UntargetedByDbCons(db: seq<Title>)
    requires |db| > 0
    ensures forall o :: UntargetedByDb(o, db) ==> Untargeted(o, db[0].settings) && UntargetedByDb(o, db[1..])
  {
    forall o | UntargetedByDb(o, db) ensures UntargetedByDb(o, db[1..]) {
      assert forall i :: 0 <= i < |db| - 1 ==> db[1..][i] == db[i + 1];
    }
  }

  /** In a database whose entries are all at distinct locations, the first
      title's entries are distinct and no later title touches them. */
  lemma DisjointHead(db: seq<Title>, a: int)
    requires |db| > 0 && DisjointTitles(db) && 0 <= a < |db[0].settings|
    ensures DistinctLocations(db[0].settings)
    ensures UntargetedByDb(db[0].settings[a], db[1..])
  {
    forall i, b | 0 <= i < |db[1..]| && 0 <= b < |db[1..][i].settings|
      ensures !SameLocation(db[0].settings[a], db[1..][i].settings[b])
    {
      assert db[1..][i] == db[i + 1];
    }
  }

  /** In a database whose entries are all at distinct locations, the first
      title touches no entry of a later title, and the rest stays disjoint. */
  lemma DisjointTail(db: seq<Title>, i: int, a: int)
    requires DisjointTitles(db) && 1 <= i < |db| && 0 <= a < |db[i].settings|
    ensures Untargeted(db[i].settings[a], db[0].settings)
    ensures DisjointTitles(db[1..])
  {
    assert forall k :: 0 <= k < |db| - 1 ==> db[1..][k] == db[k + 1];
  }

  /** A framed first entry and a framed rest make a framed whole. */
  lemma FramedCons(h: Setting, ss: seq<Setting>, rest: seq<Setting>, keys: set<string>)
    requires |ss| > 0 && Framed([h], ss[..1], keys) && Framed(rest, ss[1..], keys)
    ensures Framed([h] + rest, ss, keys)
  {
    forall j | 1 <= j < |ss| ensures ([h] + rest)[j] == rest[j - 1] && ss[1..][j - 1] == ss[j] {
    }
    assert ([h] + rest)[0] == [h][0] && ss[..1][0] == ss[0];
  }

  /** What the first entry and the rest leave untouched, the whole leaves untouched. */
  lemma UntargetedCons(ss: seq<Setting>)
    requires |ss| > 0
    ensures forall o :: Untargeted(o, ss) ==> !SameLocation(o, ss[0]) && Untargeted(o, ss[1..])
  {
    forall o | Untargeted(o, ss) ensures Untargeted(o, ss[1..]) {
      assert forall i :: 0 <= i < |ss| - 1 ==> ss[1..][i] == ss[i + 1];
    }
  }

  /** Runs `UpdateSetting` over the enabled entries of `ss`, in order,
      threading the live world through. */
  function SyncSettings(ss: seq<Setting>, lastCheck: Time, dest: string, gameKey: string,
                        updateDB: bool, updateFile: bool, w: World): (r: Synced)
    ensures |r.settings| == |ss|
    ensures forall i :: 0 <= i < |ss| && !ss[i].enabled ==> r.settings[i] == ss[i]
    ensures forall i :: 0 <= i < |ss| ==>
              && SameLocation(r.settings[i], ss[i])
              && (r.settings[i].enabled ==> ss[i].enabled)
              && StoresAgreeOff(r.settings[i].data, ss[i].data, {gameKey})
    ensures !updateDB ==> forall i :: 0 <= i < |ss| ==> r.settings[i].data == ss[i].data
    ensures !updateFile ==> r.world == w
    ensures !updateFile ==> forall i :: 0 <= i < |ss| && ss[i].enabled ==>
              && (ReadLive(w, ss[i]).None? ==> r.settings[i] == ss[i].(enabled := false))
              && (ReadLive(w, ss[i]).Some? && updateDB ==>
                    r.settings[i] == ss[i].(data := ss[i].data[gameKey := ReadLive(w, ss[i]).value]))
    ensures forall o :: Untargeted(o, ss) ==> ReadLive(r.world, o) == ReadLive(w, o)
  {
    if ss == [] then Synced([], w)
    else
      var head := SyncEntry(ss[0], lastCheck, dest, gameKey, updateDB, updateFile, w);
      var rest := SyncSettings(ss[1..], lastCheck, dest, gameKey, updateDB, updateFile, head.world);
      UntargetedCons(ss);
      var settings := [head.setting] + rest.settings;
      assert forall i :: 1 <= i < |ss| ==> settings[i] == rest.settings[i - 1] && ss[1..][i - 1] == ss[i];
      Synced(settings, rest.world)
  }

  /** Capture and restore with one and the same key leave every live
      artifact's bytes as they were, whatever the entries are. */
  lemma {:induction false} SameKeySyncKeepsLive(ss: seq<Setting>, lastCheck: Time, k: string, w: World, o: Setting)
    ensures ReadLive(SyncSettings(ss, lastCheck, k, k, true, true, w).world, o) == ReadLive(w, o)
  {
    if ss != [] {
      var head := SyncEntry(ss[0], lastCheck, k, k, true, true, w);
      assert ReadLive(head.world, o) == ReadLive(w, o);
      SameKeySyncKeepsLive(ss[1..], lastCheck, k, head.world, o);
    }
  }

  /** Entries at distinct locations other than the first never touch the
      first one's artifact. */
  lemma FirstUntargetedByRest(ss: seq<Setting>)
    requires |ss| > 0 && DistinctLocations(ss)
    ensures Untargeted(ss[0], ss[1..])
    ensures DistinctLocations(ss[1..])
  {
    forall j | 0 <= j < |ss[1..]| ensures !SameLocation(ss[0], ss[1..][j]) {
      assert ss[1..][j] == ss[j + 1];
    }
    forall a, b | 0 <= a < b < |ss[1..]| ensures !SameLocation(ss[1..][a], ss[1..][b]) {
      assert ss[1..][a] == ss[a + 1] && ss[1..][b] == ss[b + 1];
    }
  }

  /** What a full swap promises entry `s` when its artifact `before` exists:
      `after` captured the live bytes under `gameKey`, and the live artifact
      now holds the `dest` snapshot when there is one, its own bytes otherwise. */
  predicate SwappedEntry(s: Setting, after: Setting, before: Option<Bytes>, now: Option<Bytes>,
                         dest: string, gameKey: string)
    requires before.Some?
  {
    && after == s.(data := s.data[gameKey := before.value])
    && (dest in after.data ==> now == Some(after.data[dest]))
    && (dest !in after.data ==> now == before)
  }

  /** A full swap over entries at distinct locations: every enabled entry whose
      artifact exists ends up as `SwappedEntry` describes. */
  lemma {:induction false} FullSyncRestoresEachEntry(ss: seq<Setting>, lastCheck: Time, dest: string,
                                                     gameKey: string, w: World, i: int)
    requires DistinctLocations(ss)
    requires 0 <= i < |ss| && ss[i].enabled && ReadLive(w, ss[i]).Some?
    ensures var r := SyncSettings(ss, lastCheck, dest, gameKey, true, true, w);
            SwappedEntry(ss[i], r.settings[i], ReadLive(w, ss[i]), ReadLive(r.world, ss[i]), dest, gameKey)
  {
    var head := SyncEntry(ss[0], lastCheck, dest, gameKey, true, true, w);
    var rest := SyncSettings(ss[1..], lastCheck, dest, gameKey, true, true, head.world);
    var r := SyncSettings(ss, lastCheck, dest, gameKey, true, true, w);
    assert r == Synced([head.setting] + rest.settings, rest.world);
    FirstUntargetedByRest(ss);
    if i == 0 {
      assert r.settings[0] == head.setting;
      assert ReadLive(r.world, ss[0]) == ReadLive(head.world, ss[0]);
    } else {
      assert ss[1..][i - 1] == ss[i];
      assert !SameLocation(ss[i], ss[0]);
      assert ReadLive(head.world, ss[i]) == ReadLive(w, ss[i]);
      FullSyncRestoresEachEntry(ss[1..], lastCheck, dest, gameKey, head.world, i - 1);
      assert r.settings[i] == rest.settings[i - 1];
    }
  }

  datatype TitleSync = TitleSync(title: Title, world: World)

  /** `UpdateFilesAndRegistries(game, path_dest, path_game, ...)`: syncs the
      title's enabled entries, then stamps the fingerprint with `crcValue`. */
  function SyncTitle(t: Title, dest: string, gameKey: string, updateDB: bool, updateFile: bool,
                     crcValue: string, w: World): (r: TitleSync)
    ensures r.title.crc == crcValue
    ensures r.title.(settings := t.settings, crc := t.crc) == t
    ensures |r.title.settings| == |t.settings|
    ensures forall i :: 0 <= i < |t.settings| && !t.settings[i].enabled ==>
              r.title.settings[i] == t.settings[i]
    ensures forall i :: 0 <= i < |t.settings| ==>
              StoresAgreeOff(r.title.settings[i].data, t.settings[i].data, {gameKey})
    ensures Framed(r.title.settings, t.settings, {gameKey})
    ensures !updateFile ==> r.world == w
    ensures forall o :: Untargeted(o, t.settings) ==> ReadLive(r.world, o) == ReadLive(w, o)
  {
    var synced := SyncSettings(t.settings, t.lastCheck, dest, gameKey, updateDB, updateFile, w);
    TitleSync(t.(settings := synced.settings, crc := crcValue), synced.world)
  }

  // ---------------------------------------------------------------------------
  // The whole database
  // ---------------------------------------------------------------------------

  /** `after` is `before` synchronised against `key`: stamped with `key`,
      every other title field kept, and its entries changed only as a sync
      may change them, with stores changed only under the old fingerprint. */
  predicate Restamped(after: Title, before: Title, key: string) {
    && after.crc == key
    && after.(settings := before.settings, crc := before.crc) == before
    && Framed(after.settings, before.settings, {before.crc})
  }

  datatype DbSync = DbSync(titles: seq<Title>, world: World)

  /** `UpdateFilesAndRegistries(updateFILE, updateDB)`: every title captures
      into its old fingerprint, restores `currentKey` (the current state's
      key), and is stamped with `currentKey`. */
  function SyncAll(db: seq<Title>, currentKey: string, updateFile: bool, updateDB: bool, w: World): (r: DbSync)
    ensures |r.titles| == |db|
    ensures forall i :: 0 <= i < |db| ==> Restamped(r.titles[i], db[i], currentKey)
    ensures !updateFile ==> r.world == w
    ensures forall o :: UntargetedByDb(o, db) ==> ReadLive(r.world, o) == ReadLive(w, o)
  {
    if db == [] then DbSync([], w)
    else
      var head := SyncTitle(db[0], currentKey, db[0].crc, updateDB, updateFile, currentKey, w);
      var rest := SyncAll(db[1..], currentKey, updateFile, updateDB, head.world);
      var titles := [head.title] + rest.titles;
      assert forall i :: 1 <= i < |db| ==> titles[i] == rest.titles[i - 1] && db[1..][i - 1] == db[i];
      UntargetedByDbCons(db);
      DbSync(titles, rest.world)
  }

  /** Once every fingerprint is `currentKey`, a second full sync with the same
      key captures and restores the same snapshot, so no live bytes change. */
  lemma {:induction false} SyncAllTwiceKeepsLive(db: seq<Title>, k: string, w: World, o: Setting)
    requires forall i :: 0 <= i < |db| ==> db[i].crc == k
    ensures ReadLive(SyncAll(db, k, true, true, w).world, o) == ReadLive(w, o)
  {
    if db != [] {
      var head := SyncTitle(db[0], k, db[0].crc, true, true, k, w);
      SameKeySyncKeepsLive(db[0].settings, db[0].lastCheck, k, w, o);
      SyncAllTwiceKeepsLive(db[1..], k, head.world, o);
    }
  }

  /** The first full sync stamps every title with the key, so running it twice
      in a row leaves the live bytes where the first run put them. */
  lemma SyncAllIdempotentOnLive(db: seq<Title>, k: string, w: World, o: Setting)
    ensures var first := SyncAll(db, k, true, true, w);
            ReadLive(SyncAll(first.titles, k, true, true, first.world).world, o) == ReadLive(first.world, o)
  {
    var first := SyncAll(db, k, true, true, w);
    SyncAllTwiceKeepsLive(first.titles, k, first.world, o);
  }
}

=== FILE: wrappers.dfy ===
/** Optional values: the model's stand-in for the source's `null`. */
module Wrappers {

  datatype Option<+T> = None | Some(value: T) {

    /** The value, or `default` when absent (the source's `x ?? default`). */
    function GetOr(default: T): T {
      match this
      case Some(v) => v
      case None() => default
    }
  }
}
